=== FILE: README.md ===
# scip-protobuf, modelled in Dafny

scip-protobuf converts a compiled Protocol Buffers descriptor set into a SCIP
index. It makes two passes over the files:

1. It builds a **type tree** from all files. Packages are the roots. Each
   package holds the file's top-level messages and enums, and each message
   holds its nested messages and enums.
2. For every file, it reads every source location. The decoder walks the
   location's integer **path** through the field numbers of
   `descriptor.proto`. The path either names a declaration or ends on a
   field's type reference. The decoder yields no result, the declaration's
   descriptors, or the type name.
   - A declaration becomes a **definition** in the file's package.
   - A type name is **resolved** through the type tree and becomes a
     **reference**.
   - Each file gives one **document** holding its definitions as symbols and
     all occurrences in location order.

This project models that core (`src/main.rs`) as pure functions over
immutable data. Each abort in the converter is modelled as a `Failure`
carrying its kind:
- an `unwrap` of a missing name, package or type name;
- an index outside its collection;
- an unknown type name.

The modules are:
- `Results`: `Option`, `Result` and the `Error` kinds.
- `Schema`: the descriptor data. This is files, messages, fields, enums,
  enum values and locations, with the field-number constants the decoder
  uses.
- `Scip`: descriptors with their `Type`/`Term` suffix, symbols (a package
  name plus descriptors), occurrences and documents.
- `PathDecoder`: `get_descriptors_from_path`. It is written as a
  single-step transition `Step` and the walk `DecodeFrom`, plus the loop
  `DecodePath` that mirrors the source.
- `DecoderProperties`: what the decoder yields for every path shape. This
  covers names of messages, fields, enums and enum values at any depth, type
  references, and the paths that skip or abort.
- `TypeTree`: `populate_type_tree` and `populate_type_tree_internal`,
  including insertion where the last insert wins.
- `TypeTreeProperties`: the shape of the built tree, its package keys, and
  reachability of every declaration.
- `Resolver`: the `split(".").skip(1)` resolution, the child walk and
  `type_tree_value_to_descriptor`.
- `Assembler`: the per-file document loop and the whole conversion.
- `CrossReference`: definitions and references meet on the same symbol when
  names are free of dots. Dotted packages never resolve.
- `Scenario`: a worked one-file example.

### Behaviours worth knowing

- **A reference into a package whose name holds a `.` aborts.** Only the
  piece after the first `.` of a type name is looked up as a package
  (`src/main.rs:329-331`). The tree is keyed by whole package names
  (`src/main.rs:180-190`). So `.pkg.a.Foo` looks for a package `pkg` and,
  when only `pkg.a` exists, aborts.
  - `CrossReference.DottedPackageExample` proves the abort for a file in
    `pkg.b` referring to `Foo` in `pkg.a`, in both file orders.
  - `CrossReference.DottedPackageNeverReferenced` proves that no successful
    reference ever carries a package containing a `.`.
- **An enum value's symbol has no segment for its enum.** An enum's name is
  pushed only on the enum's own name path (field 1, `src/main.rs:121-131`).
  So value `ADMIN` of enum `Role` is defined as just `ADMIN.`.
  - `DecoderProperties.TopEnumValueNamePath` and
    `DecoderProperties.NestedEnumValueNamePath` state this.
  - `Scenario.DemoIndex` shows it on the worked example.
- **A type reference keeps none of the segments pushed before it.** The
  `TypeToResolve` result carries only the type name, and the reference's
  symbol comes from resolving that name alone (`src/main.rs:147-152`,
  `src/main.rs:326-337`).

## Model

| member | source | states |
|---|---|---|
| PathDecoder.DecodePath | src/main.rs:72-176 | The in-place loop over the path computes exactly the outcome of the step-by-step walk `Decode`. |
| PathDecoder.Step | src/main.rs:82-171 | No contract of its own: one step of the decoder at each position. Characterised by `PathDecoder.DecodePath` and the `DecoderProperties` lemmas. |
| PathDecoder.DecodeFrom | src/main.rs:81-175 | No contract of its own: the walk from a position with the descriptors pushed so far. Characterised by `DecoderProperties.DecodeExtendsAccumulator`. |
| PathDecoder.Decode | src/main.rs:72-176 | No contract of its own: the decoder started at a file. Characterised by `PathDecoder.DecodePath` and the `DecoderProperties` path lemmas. |
| DecoderProperties.DecodeExtendsAccumulator | src/main.rs:76-175 | Descriptors are only ever appended, at most one per path step. A result extends the descriptors pushed before it. |
| DecoderProperties.EmptyPathYieldsNoDescriptors | src/main.rs:81-175 | An empty path yields an empty descriptor list, not a skip. |
| DecoderProperties.CollectionSelectorYieldsNoDescriptors | src/main.rs:83-85 | A path that stops after selecting the file's message or enum collection yields an empty descriptor list. |
| DecoderProperties.UnrecognisedFieldSkips | src/main.rs:82-171 | An unknown field number at a file, a named message, an enum, a field or a value skips the location, whatever follows it. At an unnamed message the name unwrap (line 97) aborts first; see `DecoderProperties.UnnamedMessageAborts`. |
| DecoderProperties.UnnamedMessageAborts | src/main.rs:95-112 | At a message without a name every step aborts with a missing name, whatever the field number, since the name is read before the field number is matched. |
| DecoderProperties.LastIndexSkips | src/main.rs:89-94 | An in-range index as the last step skips the location. |
| DecoderProperties.BadIndexFails | src/main.rs:89-94 | An index that is negative or past the end aborts, even as the last step. |
| DecoderProperties.WalkMessageChain | src/main.rs:89-113 | Walking nested messages pushes one `Type` segment per enclosing message, outermost first, and stops at the innermost message. |
| DecoderProperties.MessageNamePath | src/main.rs:95-105 | A message's name path, at any depth, yields one `Type` segment per message of its chain, ending with its own. |
| DecoderProperties.FieldCollectionPath | src/main.rs:95-106 | A path that stops at a message's field collection yields the chain's `Type` segments. |
| DecoderProperties.MessageCollectionPath | src/main.rs:95-112 | A path that stops at a message's field, nested-message or nested-enum collection, at any depth, yields the chain's `Type` segments, since nothing checks the last step there. |
| DecoderProperties.TopEnumValuesPath | src/main.rs:115-131 | A path that stops at a top-level enum's value collection yields no descriptors: the enum contributes no segment there. |
| DecoderProperties.NestedEnumValuesPath | src/main.rs:95-131 | A path that stops at a nested enum's value collection yields the chain's `Type` segments and none for the enum. |
| DecoderProperties.MessageIndexPathSkips | src/main.rs:89-94 | A path ending on a nested message's index skips the location, at every depth. |
| DecoderProperties.FieldNamePath | src/main.rs:139-146 | A field's name path yields the chain's `Type` segments then the field's `Term` segment, or aborts on a missing name. |
| DecoderProperties.FieldTypePath | src/main.rs:147-152 | A field's type-reference path yields the field's type name, whatever follows it, or aborts on a missing type name. |
| DecoderProperties.NestedEnumNamePath | src/main.rs:111-128 | A nested enum's name path yields the chain's segments then the enum's `Type` segment, or aborts on a missing name. |
| DecoderProperties.NestedEnumValueNamePath | src/main.rs:121-169 | A nested enum value's name path yields the chain's segments then the value's `Term` segment, with no segment for the enum. |
| DecoderProperties.TopEnumNamePath | src/main.rs:115-128 | A top-level enum's name path yields its single `Type` segment, or aborts on a missing name. |
| DecoderProperties.TopEnumValueNamePath | src/main.rs:155-169 | A top-level enum value's name path yields only its `Term` segment, or aborts on a missing name. |
| TypeTree.BuildError | src/main.rs:179-258 | The builder aborts exactly when some file lacks a package or some message or enum lacks a name. |
| TypeTree.BuildTree | src/main.rs:300-304 | The tree is built exactly when every file is buildable. |
| TypeTree.InsertNodes | src/main.rs:194-201 | No contract of its own: inserting children one after another under their names. Characterised by `TypeTreeProperties.InsertNodesKeys` and `TypeTreeProperties.InsertNodesLastWins`. |
| TypeTree.MessageNode | src/main.rs:224-241 | No contract of its own: a message's node with its nested messages and enums below it. Characterised by `TypeTreeProperties.MessageNodeChildKeys`, `TypeTreeProperties.NestedMessageChild`, `TypeTreeProperties.NestedEnumChild` and `TypeTreeProperties.MessageNodeOk`. |
| TypeTree.EnumNode | src/main.rs:243-255 | No contract of its own: an enum's node, with no children. Characterised by `TypeTreeProperties.NestedEnumChild` and `TypeTreeProperties.TopEnumReachable`. |
| TypeTree.AddFile | src/main.rs:179-222 | Adding a file gives the tree exactly one more key at most, the file's package, and leaves every other package's node unchanged. An existing package node keeps its name and kind. |
| TypeTree.Populate | src/main.rs:300-304 | No contract of its own: every file added in input order. Characterised by `TypeTreeProperties.PopulatePackage`, `TypeTreeProperties.PopulatePackageChildren`, `TypeTreeProperties.PopulateWellFormed` and `TypeTreeProperties.PopulateLastWins`. |
| TypeTreeProperties.InsertNodesKeys | src/main.rs:194-201 | Inserting adds exactly the inserted names as keys and leaves every other entry unchanged. |
| TypeTreeProperties.InsertNodesLastWins | src/main.rs:194-201 | A name inserted for the last time keeps the node inserted then. |
| TypeTreeProperties.MessageNodeChildKeys | src/main.rs:224-258 | A message node's children are keyed by exactly its nested messages' and enums' names. |
| TypeTreeProperties.NestedMessageChild | src/main.rs:228-241 | With unique child names, each nested message is found under its name as the node built from it. |
| TypeTreeProperties.NestedEnumChild | src/main.rs:243-255 | With unique child names, each nested enum is found under its name as a node without children. |
| TypeTreeProperties.MessageNodeOk | src/main.rs:224-258 | A message node is well formed: children are keyed by their names, are never packages, and enums have no children. |
| TypeTreeProperties.PopulateWellFormed | src/main.rs:179-222 | Every key of the built tree names a package node of that name, well formed below. |
| TypeTreeProperties.PopulatePackage | src/main.rs:180-190 | The tree has a package key exactly when some file declares that package. |
| TypeTreeProperties.PopulatePackageChildren | src/main.rs:192-221 | A package node has a child exactly for each top-level name declared in that package by some file. |
| TypeTreeProperties.PopulateLastWins | src/main.rs:179-222 | Where names repeat, the last declaration wins: a top-level declaration is found under its package, as its own node, when neither a later declaration of its file nor a later file of the same package declares that name again. Earlier files and declarations of the name are replaced. |
| TypeTreeProperties.PopulateReachesTop | src/main.rs:194-221 | With unique top-level names, each top-level declaration is found under its package by its name, as its own node. |
| TypeTreeProperties.TopMessageReachable | src/main.rs:194-209 | With unique top-level names in each package, each top-level message is found under its package as the node built from it. |
| TypeTreeProperties.TopEnumReachable | src/main.rs:211-221 | With unique top-level names in each package, each top-level enum is found under its package as a node without children. |
| Resolver.JoinSplit | src/main.rs:329 | Splitting at `.` loses nothing: joining the pieces gives back the type name. |
| Resolver.SplitJoin | src/main.rs:329 | Splitting undoes joining when no piece holds a `.`. |
| Resolver.SplitNoSep | src/main.rs:329 | A string without `.` splits into itself alone. |
| Resolver.Split | src/main.rs:329 | There is always at least one piece, and no piece holds the separator. `Resolver.JoinSplit` shows the pieces join back to the string. |
| Resolver.NodeDescriptor | src/main.rs:263-274 | A message or enum node gives a `Type` descriptor under its name; a package node aborts. |
| Resolver.WalkChildren | src/main.rs:334-337 | A successful walk yields one descriptor per key. A failed walk names a missing key from the list or reached a package node. `Resolver.WalkWellFormed` gives the exact outcome in a well-formed node. |
| Resolver.WalkWellFormed | src/main.rs:334-337 | In a well-formed node the walk succeeds exactly when every key is present, giving one `Type` descriptor per key. |
| Resolver.Resolve | src/main.rs:329-337 | A resolved symbol's package is the name of the package node keyed by the second `.`-separated piece of the type name; whatever precedes the first `.` is ignored. |
| Resolver.ResolveWellFormed | src/main.rs:329-337 | In a well-formed tree, resolution succeeds exactly when the package and every further piece are present. The symbol is that package with one `Type` descriptor per further piece. |
| Resolver.RelativeNameFails | src/main.rs:329-331 | A type name without `.` aborts, since nothing remains to look up. |
| Resolver.TypeKeysJoin | src/main.rs:329 | For pieces free of `.`, the pieces looked up for their joined name are all of them but the first. |
| Resolver.QualifiedKeys | src/main.rs:329 | For dot-free pieces, `.p.n1…nk` is looked up as package `p` then children `n1…nk`. |
| Assembler.FilePackage | src/main.rs:322 | No contract of its own: the file's package, or `.` without one. `Assembler.IndexPackages` shows that a successful conversion never uses the fallback. |
| Assembler.ScanLocations | src/main.rs:312-371 | No contract of its own: every location of a file, in order. Characterised by `Assembler.ScanFails`, `Assembler.ScanOccurrences`, `Assembler.ScanSymbols`, `Assembler.ScanRoles` and `Assembler.ScanSpans`. |
| Assembler.ClassifyLocation | src/main.rs:312-370 | A decoder abort aborts and no result gives no occurrence. Descriptors give a definition (role 1) of the file's package with those descriptors. A type name gives a reference (role 0) to the symbol it resolves to, or aborts with the resolution's error. Every occurrence carries its location's span. |
| Assembler.ScanFails | src/main.rs:312-371 | A file's scan aborts exactly when one of its locations aborts. |
| Assembler.ScanFirstFailure | src/main.rs:312-371 | The first location that aborts decides the scan's error, whatever follows it. |
| Assembler.ScanOccurrences | src/main.rs:312-371 | A successful scan's occurrences are exactly what its locations classify to, one per contributing location, in location order. |
| Assembler.ScanSymbols | src/main.rs:353-358 | A file's symbols are exactly its definition occurrences, in order. |
| Assembler.ScanRoles | src/main.rs:360-369 | Every occurrence has the definition role or no role. |
| Assembler.ScanSpans | src/main.rs:312-371 | Occurrences follow the locations that yield a result, one to one and in order, each with its location's span. |
| Assembler.DocumentOf | src/main.rs:308-380 | A document exists exactly when the scan succeeds and the file has a name. A location's abort wins over the missing-name abort, which comes only after every location is read. The document carries the file's name, the fixed language, and the scan's symbols and occurrences. |
| Assembler.DocumentsSucceed | src/main.rs:308-381 | The documents are produced exactly when every file's document is. |
| Assembler.DocumentsAt | src/main.rs:308-381 | Document `i` is file `i`'s document. |
| Assembler.DocumentsPrefixFails | src/main.rs:308-381 | The first file whose document aborts decides the error of the whole run. |
| Assembler.Documents | src/main.rs:306-381 | A successful pass gives one document per file. `Assembler.DocumentsSucceed` and `Assembler.DocumentsAt` pin down which documents and when. |
| Assembler.Index | src/main.rs:300-381 | An input with a file the tree builder rejects aborts with the builder's error before any document is assembled. A successful conversion has every file buildable and one document per file. |
| Assembler.IndexSucceeds | src/main.rs:300-381 | The conversion succeeds exactly when the tree can be built and every file's document can be assembled against it. |
| Assembler.Convert | src/main.rs:300-381 | The two loops compute the conversion: one document per file, in order, each named after its file. |
| Assembler.ScanPackages | src/main.rs:320-332 | Definitions lie in the file's package; references lie in a package of the tree. |
| Assembler.IndexPackages | src/main.rs:322 | In a successful conversion the `.` fallback package is never used. References name only packages some input file declares. |
| CrossReference.ChainLookup | src/main.rs:224-258 | With unique names, the names of a chain of nested messages lead to the innermost message's node. |
| CrossReference.MessageInTree | src/main.rs:179-258 | With unique names, a message's package and chain names lead, in the built tree, to that message's node. |
| CrossReference.MessageReferenceResolves | src/main.rs:329-337 | With unique names at every depth and a dot-free package and names, a reference `.p.A.B` to a message resolves to package `p` with `Type` descriptors `A`, `B`. |
| CrossReference.TopEnumReferenceResolves | src/main.rs:329-337 | With unique top-level names and a dot-free package and enum name, a reference to a top-level enum resolves to its package and its single `Type` descriptor. |
| CrossReference.NestedEnumReferenceResolves | src/main.rs:329-337 | With unique names at every depth and a dot-free package and names, a reference to a nested enum resolves to its package, the messages' descriptors and the enum's. |
| CrossReference.DefinitionMatchesReference | src/main.rs:316-369 | With unique names at every depth and a dot-free package and names, a message's definition and a field referring to it by its qualified name classify to the same symbol, as a definition and as a reference. With a dotted package they do not meet (`CrossReference.DottedPackageExample`). |
| CrossReference.ResolvedPackageDotFree | src/main.rs:329-332 | A resolved reference's package never contains `.`. |
| CrossReference.DottedPackageNeverReferenced | src/main.rs:329-332 | No successful reference carries the symbol of a declaration in a dotted package. |
| CrossReference.DottedPackageExample | src/main.rs:329-331 | `Foo` in `pkg.a` is defined with package `pkg.a`, but `.pkg.a.Foo` aborts on the missing package `pkg`, in either file order. |
| Scenario.DemoReference | src/main.rs:326-337 | In the worked example the field's type reference `.demo.Role` resolves to the enum's definition symbol. |
| Scenario.DemoIndex | src/main.rs:300-381 | The worked example gives one document with four definitions and five occurrences. The reference shares the enum's symbol, and the enum value has no enum segment. |

## Left out

- Command-line parsing (`src/main.rs:25-36`) is not modelled. It only names
  the input, output and project root.
- Reading the descriptor set and writing the index (`src/main.rs:279-298`
  and `src/main.rs:400-405`) are not modelled. This is file I/O and protobuf
  wire decoding and encoding. The model starts from the decoded files and
  ends with the documents.
- The index metadata (`src/main.rs:383-398`) is not modelled. It holds the
  canonicalised project root, the encoding tag, the tool name and version,
  and the process arguments, which come from the environment and the file
  system.
- `format_symbol` (`src/main.rs:341-351`) belongs to the SCIP library and is
  not part of this model. A symbol is kept as its structured package name
  and descriptors. Its scheme, manager and version are the constant `.`.
  Two symbols are equal in the model exactly when their package names and
  descriptors are equal. That is what the formatted strings would show, if
  the formatting is injective.
- Path elements are unbounded integers rather than `i32`. A negative index,
  which Rust turns into a huge `usize`, is an out-of-range abort in the
  model, which has the same effect.
- Panics are modelled as `Failure` values that stop the run. Error messages
  and exit codes are not modelled.
- TypeTree.AddFile: its contract gives the tree's keys and leaves other
  packages unchanged. It does not state the package node's new children.
  Those are stated for the whole build by
  `TypeTreeProperties.PopulatePackageChildren` (which names exist) and
  `TypeTreeProperties.PopulateLastWins` (which declaration each name
  holds).
- Resolver.Resolve: its own contract states only the package of a success.
  The full descriptor list needs a well-formed tree and is stated by
  `Resolver.ResolveWellFormed`.
- CrossReference.MessageReferenceResolves: it assumes names are unique at
  every depth and the package and names are dot-free. The schema compiler
  guarantees the first. Without the second, resolution splits names
  differently from how they were declared
  (`CrossReference.DottedPackageExample`).
- CrossReference.TopEnumReferenceResolves: it assumes unique top-level
  names and a dot-free package and enum name, for the same reasons.
- CrossReference.NestedEnumReferenceResolves: it assumes the same premises
  as `CrossReference.MessageReferenceResolves`.
- CrossReference.DefinitionMatchesReference: it assumes the same premises
  as `CrossReference.MessageReferenceResolves`. With a dotted package the
  definition and the reference do not meet.

=== FILE: assembler.dfy ===
/** Document assembly (the per-file loop of `main`).

    The type tree is built from every file first.  Then, for each file in
    input order and each of its source locations in order, the location's
    path is decoded: no result skips the location, descriptors make a
    definition in the file's own package, and a type reference is resolved
    through the tree into a reference.  Every definition also becomes a
    symbol of the document.  The file's name is read only after all of its
    locations, so an abort in a location wins over a missing file name.
 */
module Assembler {
  import opened Results
  import opened Schema
  import opened Scip
  import opened PathDecoder
  import opened TypeTree
  import opened Resolver
  import opened TypeTreeProperties

  /** The package a definition is placed in: the file's package, or "." when
      it has none (the fallback the converter writes but never reaches, since
      the tree builder aborts first on a file without a package). */
  function FilePackage(f: FileDecl): string {
    if f.package.Some? then f.package.value else "."
  }

  /** The occurrence one location contributes, if any: a decoder abort
      aborts, no result contributes nothing, descriptors make a definition in
      the file's package, and a type name makes a reference to the symbol it
      resolves to, or aborts with the resolution's error. */
  function ClassifyLocation(tree: Tree, f: FileDecl, loc: Location): (r: Result<Option<Occurrence>>)
    ensures r.Success? && r.value.Some? ==>
              r.value.value.span == loc.span
              && (r.value.value.roles == DefinitionRole || r.value.value.roles == ReferenceRole)
    ensures var d := Decode(f, loc.path);
            && (d.Failure? ==> r == Failure(d.error))
            && (d.Success? && d.value.None? ==> r == Success(None))
            && (d.Success? && d.value.Some? && d.value.value.Descriptors? ==>
                  r == Success(Some(Occurrence(Symbol(FilePackage(f), d.value.value.descriptors), DefinitionRole, loc.span))))
    ensures var d := Decode(f, loc.path);
            d.Success? && d.value.Some? && d.value.value.TypeToResolve? ==>
              var res := Resolve(tree, d.value.value.typeName);
              && (res.Failure? ==> r == Failure(res.error))
              && (res.Success? ==> r == Success(Some(Occurrence(res.value, ReferenceRole, loc.span))))
  {
    var decoded :- Decode(f, loc.path);
    match decoded
    case None => Success(None)
    case Some(Descriptors(ds)) =>
      Success(Some(Occurrence(Symbol(FilePackage(f), ds), DefinitionRole, loc.span)))
    case Some(TypeToResolve(typeName)) =>
      var sym :- Resolve(tree, typeName);
      Success(Some(Occurrence(sym, ReferenceRole, loc.span)))
  }

  /** What a file's locations contribute so far: its symbols and occurrences. */
  datatype Contribution = Contribution(symbols: seq<SymbolInformation>, occurrences: seq<Occurrence>)

  /** The locations in order, each occurrence appended and each definition
      also recorded as a symbol; the first abort stops the scan. */
  function ScanLocations(tree: Tree, f: FileDecl, locs: seq<Location>): Result<Contribution>
    decreases |locs|
  {
    if |locs| == 0 then Success(Contribution([], []))
    else
      var prev :- ScanLocations(tree, f, locs[..|locs| - 1]);
      var occ :- ClassifyLocation(tree, f, locs[|locs| - 1]);
      match occ
      case None => Success(prev)
      case Some(o) =>
        var syms := if o.roles == DefinitionRole then prev.symbols + [SymbolInformation(o.symbol)] else prev.symbols;
        Success(Contribution(syms, prev.occurrences + [o]))
  }

  /** The symbols a document records: one per definition, in order. */
  function DefinedSymbols(occs: seq<Occurrence>): (syms: seq<SymbolInformation>)
    ensures |syms| <= |occs|
    decreases |occs|
  {
    if |occs| == 0 then []
    else
      var prev := DefinedSymbols(occs[..|occs| - 1]);
      var o := occs[|occs| - 1];
      if o.roles == DefinitionRole then prev + [SymbolInformation(o.symbol)] else prev
  }

  /** The spans of the locations that yield an occurrence, in order. */
  function RecognisedSpans(tree: Tree, f: FileDecl, locs: seq<Location>): seq<seq<int>>
    decreases |locs|
  {
    if |locs| == 0 then []
    else
      var prev := RecognisedSpans(tree, f, locs[..|locs| - 1]);
      var loc := locs[|locs| - 1];
      var r := ClassifyLocation(tree, f, loc);
      if r.Success? && r.value.Some? then prev + [loc.span] else prev
  }

  /** The first location whose classification aborts, if any. */
  predicate ScanAborts(tree: Tree, f: FileDecl, locs: seq<Location>) {
    exists i :: 0 <= i < |locs| && ClassifyLocation(tree, f, locs[i]).Failure?
  }

  function Spans(occs: seq<Occurrence>): (spans: seq<seq<int>>)
    ensures |spans| == |occs|
    ensures forall i :: 0 <= i < |occs| ==> spans[i] == occs[i].span
  {
    if |occs| == 0 then [] else [occs[0].span] + Spans(occs[1..])
  }

  lemma SpansSnoc(occs: seq<Occurrence>, o: Occurrence)
    ensures Spans(occs + [o]) == Spans(occs) + [o.span]
  {
    assert |Spans(occs + [o])| == |Spans(occs) + [o.span]|;
  }

  /** The occurrences the locations contribute, in order, skipping the
      locations that contribute none or abort. */
  function Recognised(tree: Tree, f: FileDecl, locs: seq<Location>): seq<Occurrence>
    decreases |locs|
  {
    if |locs| == 0 then []
    else
      var prev := Recognised(tree, f, locs[..|locs| - 1]);
      var r := ClassifyLocation(tree, f, locs[|locs| - 1]);
      if r.Success? && r.value.Some? then prev + [r.value.value] else prev
  }

  /** A successful scan's occurrences are exactly the occurrences its
      locations classify to, one per contributing location, in order. */
  lemma {:induction false} ScanOccurrences(tree: Tree, f: FileDecl, locs: seq<Location>)
    requires ScanLocations(tree, f, locs).Success?
    ensures ScanLocations(tree, f, locs).value.occurrences == Recognised(tree, f, locs)
    decreases |locs|
  {
    if |locs| > 0 {
      ScanOccurrences(tree, f, locs[..|locs| - 1]);
    }
  }

  /** A scan aborts exactly when one of its locations aborts. */
  lemma {:induction false} ScanFails(tree: Tree, f: FileDecl, locs: seq<Location>)
    ensures ScanLocations(tree, f, locs).Failure? <==> ScanAborts(tree, f, locs)
    decreases |locs|
  {
    if |locs| > 0 {
      var init := locs[..|locs| - 1];
      var last := locs[|locs| - 1];
      ScanFails(tree, f, init);
      if ScanAborts(tree, f, init) {
        var i :| 0 <= i < |init| && ClassifyLocation(tree, f, init[i]).Failure?;
        assert locs[i] == init[i];
      }
      if ScanAborts(tree, f, locs) {
        var i :| 0 <= i < |locs| && ClassifyLocation(tree, f, locs[i]).Failure?;
        if i < |locs| - 1 { assert init[i] == locs[i]; }
      }
    }
  }

  /** The first location that aborts decides the scan's error: when every
      location before `locs[i]` classifies and `locs[i]` aborts, the scan
      fails with that location's error, whatever follows it. */
  lemma {:induction false} ScanFirstFailure(tree: Tree, f: FileDecl, locs: seq<Location>, i: int)
    requires 0 <= i < |locs|
    requires ScanLocations(tree, f, locs[..i]).Success?
    requires ClassifyLocation(tree, f, locs[i]).Failure?
    ensures ScanLocations(tree, f, locs) == Failure(ClassifyLocation(tree, f, locs[i]).error)
    decreases |locs|
  {
    var init := locs[..|locs| - 1];
    if i < |locs| - 1 {
      assert init[..i] == locs[..i] && init[i] == locs[i];
      ScanFirstFailure(tree, f, init, i);
    }
  }

  /** A successful scan records as symbols exactly the definitions among
      its occurrences, in order. */
  lemma {:induction false} ScanSymbols(tree: Tree, f: FileDecl, locs: seq<Location>)
    requires ScanLocations(tree, f, locs).Success?
    ensures var c := ScanLocations(tree, f, locs).value;
            c.symbols == DefinedSymbols(c.occurrences)
    decreases |locs|
  {
    if |locs| > 0 {
      var init := locs[..|locs| - 1];
      ScanSymbols(tree, f, init);
      var prev := ScanLocations(tree, f, init).value;
      var occ := ClassifyLocation(tree, f, locs[|locs| - 1]).value;
      if occ.Some? {
        var occs := prev.occurrences + [occ.value];
        assert occs[..|occs| - 1] == prev.occurrences;
        assert occs[|occs| - 1] == occ.value;
      }
    }
  }

  /** Every occurrence of a successful scan is a definition or a reference. */
  lemma {:induction false} ScanRoles(tree: Tree, f: FileDecl, locs: seq<Location>)
    requires ScanLocations(tree, f, locs).Success?
    ensures var occs := ScanLocations(tree, f, locs).value.occurrences;
            forall i :: 0 <= i < |occs| ==> occs[i].roles == DefinitionRole || occs[i].roles == ReferenceRole
    decreases |locs|
  {
    if |locs| > 0 {
      var init := locs[..|locs| - 1];
      ScanRoles(tree, f, init);
      var prev := ScanLocations(tree, f, init).value.occurrences;
      var occ := ClassifyLocation(tree, f, locs[|locs| - 1]).value;
      if occ.Some? {
        var occs := prev + [occ.value];
        assert forall i :: 0 <= i < |prev| ==> occs[i] == prev[i];
      }
    }
  }

  /** The occurrences of a successful scan follow the locations that yield
      one, one to one and in order, each carrying its location's span. */
  lemma {:induction false} ScanSpans(tree: Tree, f: FileDecl, locs: seq<Location>)
    requires ScanLocations(tree, f, locs).Success?
    ensures Spans(ScanLocations(tree, f, locs).value.occurrences) == RecognisedSpans(tree, f, locs)
    decreases |locs|
  {
    if |locs| > 0 {
      var init := locs[..|locs| - 1];
      ScanSpans(tree, f, init);
      var prev := ScanLocations(tree, f, init).value;
      var occ := ClassifyLocation(tree, f, locs[|locs| - 1]).value;
      if occ.Some? {
        SpansSnoc(prev.occurrences, occ.value);
      }
    }
  }

  /** The document of one file, or the first abort among its locations, or
      the abort for its missing name. */
  function DocumentOf(tree: Tree, f: FileDecl): (r: Result<Document>)
    ensures r.Success? <==> ScanLocations(tree, f, f.locations).Success? && f.name.Some?
    ensures ScanLocations(tree, f, f.locations).Failure? ==> r == Failure(ScanLocations(tree, f, f.locations).error)
    ensures ScanLocations(tree, f, f.locations).Success? && f.name.None? ==> r == Failure(MissingFileName)
    ensures r.Success? ==> f.name.Some? && r.value.relativePath == f.name.value && r.value.language == Language
    ensures r.Success? ==>
              && r.value.symbols == ScanLocations(tree, f, f.locations).value.symbols
              && r.value.occurrences == ScanLocations(tree, f, f.locations).value.occurrences
  {
    var c :- ScanLocations(tree, f, f.locations);
    if f.name.None? then Failure(MissingFileName)
    else Success(Document(f.name.value, Language, c.symbols, c.occurrences))
  }

  /** The documents of the files in order, or the first abort. */
  function Documents(tree: Tree, files: seq<FileDecl>): (r: Result<seq<Document>>)
    ensures r.Success? ==> |r.value| == |files|
    decreases |files|
  {
    if |files| == 0 then Success([])
    else
      var d :- DocumentOf(tree, files[0]);
      var rest :- Documents(tree, files[1..]);
      Success([d] + rest)
  }

  /** The whole index body: the type tree of every file, then the documents. */
  function Index(files: seq<FileDecl>): (r: Result<seq<Document>>)
    ensures !AllBuildable(files) ==> r == Failure(BuildError(files).value)
    ensures r.Success? ==> AllBuildable(files) && |r.value| == |files|
  {
    var tree :- BuildTree(files);
    Documents(tree, files)
  }

  /** The documents are produced exactly when every file's document is. */
  lemma {:induction false} DocumentsSucceed(tree: Tree, files: seq<FileDecl>)
    ensures Documents(tree, files).Success?
            <==> forall i :: 0 <= i < |files| ==> DocumentOf(tree, files[i]).Success?
    decreases |files|
  {
    if |files| > 0 {
      DocumentsSucceed(tree, files[1..]);
      forall i | 1 <= i < |files| ensures files[1..][i - 1] == files[i] { }
    }
  }

  /** When produced, document `i` is file `i`'s document. */
  lemma {:induction false} DocumentsAt(tree: Tree, files: seq<FileDecl>)
    requires Documents(tree, files).Success?
    ensures forall i :: 0 <= i < |files| ==>
              DocumentOf(tree, files[i]).Success? && Documents(tree, files).value[i] == DocumentOf(tree, files[i]).value
    decreases |files|
  {
    DocumentsSucceed(tree, files);
    if |files| > 0 {
      DocumentsAt(tree, files[1..]);
      var rest := Documents(tree, files[1..]).value;
      forall i | 0 <= i < |files|
        ensures DocumentOf(tree, files[i]).Success? && Documents(tree, files).value[i] == DocumentOf(tree, files[i]).value
      {
        if i > 0 {
          assert Documents(tree, files).value[i] == rest[i - 1];
          assert files[1..][i - 1] == files[i];
        }
      }
    }
  }

  /** The conversion succeeds exactly when the tree can be built and every
      file's document can be assembled against it. */
  lemma IndexSucceeds(files: seq<FileDecl>)
    ensures Index(files).Success?
            <==> AllBuildable(files)
                 && forall i :: 0 <= i < |files| ==> DocumentOf(Populate(files), files[i]).Success?
  {
    if AllBuildable(files) {
      DocumentsSucceed(Populate(files), files);
    }
  }

  /** `main`'s two loops: the tree from every file, then one document per
      file in order, stopping at the first abort. */
  method Convert(files: seq<FileDecl>) returns (r: Result<seq<Document>>)
    ensures r == Index(files)
    ensures r.Success? ==> AllBuildable(files) && |r.value| == |files|
    ensures r.Success? ==> forall i :: 0 <= i < |files| ==>
              files[i].name.Some? && r.value[i].relativePath == files[i].name.value
  {
    var built := BuildTree(files);
    if built.Failure? {
      return Failure(built.error);
    }
    var tree := built.value;
    var documents: seq<Document> := [];
    var i := 0;
    while i < |files|
      invariant 0 <= i <= |files|
      invariant Documents(tree, files[..i]) == Success(documents)
    {
      var d := DocumentOf(tree, files[i]);
      if d.Failure? {
        DocumentsPrefixFails(tree, files, i);
        return Failure(d.error);
      }
      DocumentsSnoc(tree, files[..i], files[i]);
      assert files[..i + 1] == files[..i] + [files[i]];
      documents := documents + [d.value];
      i := i + 1;
    }
    assert files[..i] == files;
    DocumentsAt(tree, files);
    forall k | 0 <= k < |files| ensures files[k].name.Some? && documents[k].relativePath == files[k].name.value {
      assert documents[k] == DocumentOf(tree, files[k]).value;
    }
    r := Success(documents);
  }

  /** Appending a file whose document succeeds appends its document. */
  lemma {:induction false} DocumentsSnoc(tree: Tree, files: seq<FileDecl>, f: FileDecl)
    requires Documents(tree, files).Success? && DocumentOf(tree, f).Success?
    ensures Documents(tree, files + [f]) == Success(Documents(tree, files).value + [DocumentOf(tree, f).value])
    decreases |files|
  {
    if |files| == 0 {
      assert files + [f] == [f];
      assert [f][1..] == [];
      var g := DocumentOf(tree, f).value;
      assert Documents(tree, [f][1..]) == Success([]);
      assert Documents(tree, [f]) == Success([g] + []);
      assert [g] + [] == [g] == [] + [g];
      assert Documents(tree, files).value == [];
    } else {
      var all := files + [f];
      assert all[0] == files[0];
      assert all[1..] == files[1..] + [f];
      DocumentsSnoc(tree, files[1..], f);
      var d := DocumentOf(tree, files[0]).value;
      assert Documents(tree, all) == Success([d] + Documents(tree, all[1..]).value);
      assert Documents(tree, files).value == [d] + Documents(tree, files[1..]).value;
      var g := DocumentOf(tree, f).value;
      assert [d] + (Documents(tree, files[1..]).value + [g]) == ([d] + Documents(tree, files[1..]).value) + [g];
    }
  }

  /** When the documents of a prefix succeed and the next file's aborts,
      the documents of all files abort with that same error. */
  lemma {:induction false} DocumentsPrefixFails(tree: Tree, files: seq<FileDecl>, i: int)
    requires 0 <= i < |files|
    requires Documents(tree, files[..i]).Success?
    requires DocumentOf(tree, files[i]).Failure?
    ensures Documents(tree, files) == Failure(DocumentOf(tree, files[i]).error)
    decreases i
  {
    if i > 0 {
      assert files[..i][0] == files[0];
      assert files[..i][1..] == files[1..][..i - 1];
      DocumentsPrefixFails(tree, files[1..], i - 1);
    }
  }

  // ----- Packages of the symbols -------------------------------------------------

  /** In a scan of a file with a package, every definition lies in that
      package, and every reference lies in a package of the tree. */
  lemma {:induction false} ScanPackages(tree: Tree, f: FileDecl, locs: seq<Location>)
    requires f.package.Some? && TreeWellFormed(tree)
    requires ScanLocations(tree, f, locs).Success?
    ensures var occs := ScanLocations(tree, f, locs).value.occurrences;
            forall i :: 0 <= i < |occs| ==>
              (occs[i].roles == DefinitionRole ==> occs[i].symbol.package == f.package.value)
              && (occs[i].roles == ReferenceRole ==> occs[i].symbol.package in tree)
    decreases |locs|
  {
    if |locs| > 0 {
      var init := locs[..|locs| - 1];
      ScanPackages(tree, f, init);
      var prev := ScanLocations(tree, f, init).value.occurrences;
      var last := locs[|locs| - 1];
      var occ := ClassifyLocation(tree, f, last).value;
      if occ.Some? {
        var o := occ.value;
        var decoded := Decode(f, last.path).value.value;
        if decoded.TypeToResolve? {
          var keys := TypeKeys(decoded.typeName);
          assert o.symbol.package == tree[keys[0]].name;
        }
        var occs := prev + [o];
        assert forall i :: 0 <= i < |prev| ==> occs[i] == prev[i];
      }
    }
  }

  /** In a successful conversion the "." fallback package is never used:
      each definition lies in its own file's package, and each reference in
      a package that some input file declares. */
  lemma IndexPackages(files: seq<FileDecl>, i: int, j: int)
    requires Index(files).Success? && 0 <= i < |files|
    requires 0 <= j < |Index(files).value[i].occurrences|
    ensures var o := Index(files).value[i].occurrences[j];
            && files[i].package.Some?
            && (o.roles == DefinitionRole ==> o.symbol.package == files[i].package.value)
            && (o.roles == ReferenceRole ==> exists g :: 0 <= g < |files| && files[g].package == Some(o.symbol.package))
  {
    var tree := Populate(files);
    assert AllBuildable(files);
    PopulateWellFormed(files);
    DocumentsAt(tree, files);
    var f := files[i];
    assert Index(files).value[i] == DocumentOf(tree, f).value;
    ScanPackages(tree, f, f.locations);
    var o := Index(files).value[i].occurrences[j];
    PopulatePackage(files, o.symbol.package);
  }
}

=== FILE: cross_reference.dfy ===
/** How definitions and references meet.

    A definition's symbol is built from the path of its declaration; a
    reference's symbol is built by resolving the fully qualified type name
    through the type tree.  When the package name and every declaration name
    are free of `.` and names are unique where the schema compiler demands
    it, both constructions give the same symbol.  A package whose name holds
    a `.` never matches: resolution looks up only the piece before the first
    `.` as the package.
 */
module CrossReference {
  import opened Results
  import opened Schema
  import opened Scip
  import opened PathDecoder
  import opened DecoderProperties
  import opened TypeTree
  import opened TypeTreeProperties
  import opened Resolver
  import opened Assembler

  /** `.p.n1.….nk`, the way the schema compiler writes a type reference. */
  function QualifiedName(p: string, names: seq<string>): string {
    Join(["", p] + names, '.')
  }

  predicate DotFree(names: seq<string>) {
    forall t :: 0 <= t < |names| ==> '.' !in names[t]
  }

  // ----- Looking up declarations in the tree ------------------------------------

  /** Looking up a concatenation of keys looks up the second part from where
      the first part leads. */
  lemma {:induction false} LookupAppend(n: TypeNode, a: seq<string>, b: seq<string>)
    ensures Lookup(n, a + b) == if Lookup(n, a).Some? then Lookup(Lookup(n, a).value, b) else None
    decreases |a|
  {
    if |a| == 0 {
      assert a + b == b;
    } else {
      assert (a + b)[0] == a[0] && (a + b)[1..] == a[1..] + b;
      if a[0] in n.children {
        LookupAppend(n.children[a[0]], a[1..], b);
      }
    }
  }

  /** The names along a chain: the first message's, then those of the rest. */
  lemma ChainNamesCons(msgs: seq<MessageDecl>, idxs: seq<int>)
    requires ValidChain(msgs, idxs)
    ensures ChainNames(msgs, idxs)
         == [msgs[idxs[0]].name.value]
            + (if |idxs| == 1 then [] else ChainNames(msgs[idxs[0]].nested, idxs[1..]))
  {
  }

  /** Below a message with unique child names, the names of a chain of its
      nested messages lead to the node of the innermost one. */
  lemma {:induction false} ChainLookup(m: MessageDecl, idxs: seq<int>)
    requires MessageNamed(m) && DeepUnique(m) && ValidChain(m.nested, idxs)
    ensures MessageNamed(Innermost(m.nested, idxs)) && DeepUnique(Innermost(m.nested, idxs))
    ensures Lookup(MessageNode(m), ChainNames(m.nested, idxs)) == Some(MessageNode(Innermost(m.nested, idxs)))
    decreases |idxs|
  {
    var c := m.nested[idxs[0]];
    NestedMessageChild(m, idxs[0]);
    ChainNamesCons(m.nested, idxs);
    var names := ChainNames(m.nested, idxs);
    if |idxs| == 1 {
      assert names == [c.name.value];
      assert Lookup(MessageNode(c), names[1..]) == Some(MessageNode(c));
    } else {
      ChainLookup(c, idxs[1..]);
      assert names[1..] == ChainNames(c.nested, idxs[1..]);
    }
  }

  /** Every file's nested names are unique at every depth. */
  predicate FilesDeepUnique(files: seq<FileDecl>)
    requires AllBuildable(files)
  {
    forall i, j :: 0 <= i < |files| && 0 <= j < |files[i].messages| ==> DeepUnique(files[i].messages[j])
  }

  /** With unique names, the package node of a file leads, by the names of
      a chain of its messages, to the node of the innermost message. */
  lemma MessageInTree(files: seq<FileDecl>, fi: int, idxs: seq<int>)
    requires AllBuildable(files) && UniqueTopNames(files) && FilesDeepUnique(files)
    requires 0 <= fi < |files| && ValidChain(files[fi].messages, idxs)
    ensures var p := files[fi].package.value;
            var tree := Populate(files);
            && p in tree
            && Lookup(tree[p], ChainNames(files[fi].messages, idxs))
               == Some(MessageNode(Innermost(files[fi].messages, idxs)))
    ensures MessageNamed(Innermost(files[fi].messages, idxs)) && DeepUnique(Innermost(files[fi].messages, idxs))
  {
    var f := files[fi];
    var p := f.package.value;
    var tree := Populate(files);
    var m := f.messages[idxs[0]];
    TopMessageReachable(files, fi, idxs[0]);
    ChainNamesCons(f.messages, idxs);
    var names := ChainNames(f.messages, idxs);
    LookupAppend(tree[p], [m.name.value], names[1..]);
    assert names == [m.name.value] + names[1..];
    assert Lookup(tree[p], [m.name.value]) == Some(MessageNode(m)) by {
      assert [m.name.value][1..] == [];
    }
    if |idxs| > 1 {
      ChainLookup(m, idxs[1..]);
    }
  }

  // ----- References resolve to definitions --------------------------------------

  /** A reference to a message by its fully qualified name resolves to the
      package and one `Type` descriptor per message of the chain. */
  lemma MessageReferenceResolves(files: seq<FileDecl>, fi: int, idxs: seq<int>)
    requires AllBuildable(files) && UniqueTopNames(files) && FilesDeepUnique(files)
    requires 0 <= fi < |files| && ValidChain(files[fi].messages, idxs)
    requires '.' !in files[fi].package.value && DotFree(ChainNames(files[fi].messages, idxs))
    ensures var p := files[fi].package.value;
            var names := ChainNames(files[fi].messages, idxs);
            Resolve(Populate(files), QualifiedName(p, names)) == Success(Symbol(p, TypeDescriptors(names)))
  {
    var p := files[fi].package.value;
    var names := ChainNames(files[fi].messages, idxs);
    var tree := Populate(files);
    MessageInTree(files, fi, idxs);
    PopulateWellFormed(files);
    QualifiedKeys(p, names);
    ResolveWellFormed(tree, QualifiedName(p, names));
    assert ([p] + names)[1..] == names;
  }

  /** A reference to a top-level enum by its fully qualified name resolves
      to the package and the enum's single `Type` descriptor. */
  lemma TopEnumReferenceResolves(files: seq<FileDecl>, fi: int, e: int)
    requires AllBuildable(files) && UniqueTopNames(files)
    requires 0 <= fi < |files| && 0 <= e < |files[fi].enums|
    requires '.' !in files[fi].package.value && '.' !in files[fi].enums[e].name.value
    ensures var p := files[fi].package.value;
            var name := files[fi].enums[e].name.value;
            Resolve(Populate(files), QualifiedName(p, [name]))
            == Success(Symbol(p, TypeDescriptors([name])))
  {
    var p := files[fi].package.value;
    var name := files[fi].enums[e].name.value;
    var tree := Populate(files);
    TopEnumReachable(files, fi, e);
    PopulateWellFormed(files);
    QualifiedKeys(p, [name]);
    ResolveWellFormed(tree, QualifiedName(p, [name]));
    assert ([p] + [name])[1..] == [name];
    assert Lookup(tree[p], [name]) == Lookup(tree[p].children[name], [name][1..]);
  }

  /** A reference to an enum nested in a chain of messages resolves to the
      package, the messages' `Type` descriptors and the enum's. */
  lemma NestedEnumReferenceResolves(files: seq<FileDecl>, fi: int, idxs: seq<int>, e: int)
    requires AllBuildable(files) && UniqueTopNames(files) && FilesDeepUnique(files)
    requires 0 <= fi < |files| && ValidChain(files[fi].messages, idxs)
    requires 0 <= e < |Innermost(files[fi].messages, idxs).enums|
    requires '.' !in files[fi].package.value
    requires DotFree(ChainNames(files[fi].messages, idxs) + [Innermost(files[fi].messages, idxs).enums[e].name.value])
    ensures var p := files[fi].package.value;
            var m := Innermost(files[fi].messages, idxs);
            var names := ChainNames(files[fi].messages, idxs) + [m.enums[e].name.value];
            Resolve(Populate(files), QualifiedName(p, names)) == Success(Symbol(p, TypeDescriptors(names)))
  {
    var p := files[fi].package.value;
    var m := Innermost(files[fi].messages, idxs);
    var chain := ChainNames(files[fi].messages, idxs);
    var names := chain + [m.enums[e].name.value];
    var tree := Populate(files);
    MessageInTree(files, fi, idxs);
    NestedEnumChild(m, e);
    LookupAppend(tree[p], chain, [m.enums[e].name.value]);
    assert Lookup(MessageNode(m), [m.enums[e].name.value]) == Lookup(EnumNode(m.enums[e]), []);
    PopulateWellFormed(files);
    QualifiedKeys(p, names);
    ResolveWellFormed(tree, QualifiedName(p, names));
    assert ([p] + names)[1..] == names;
  }

  /** The definition of a message and a field referring to it by its fully
      qualified name classify to the same symbol, once as a definition and
      once as a reference. */
  lemma DefinitionMatchesReference(
      files: seq<FileDecl>, fi: int, idxs: seq<int>, span: seq<int>,
      gi: int, refIdxs: seq<int>, k: int, refSpan: seq<int>)
    requires AllBuildable(files) && UniqueTopNames(files) && FilesDeepUnique(files)
    requires 0 <= fi < |files| && ValidChain(files[fi].messages, idxs)
    requires '.' !in files[fi].package.value && DotFree(ChainNames(files[fi].messages, idxs))
    requires 0 <= gi < |files| && ValidChain(files[gi].messages, refIdxs)
    requires 0 <= k < |Innermost(files[gi].messages, refIdxs).fields|
    requires Innermost(files[gi].messages, refIdxs).fields[k].typeName
             == Some(QualifiedName(files[fi].package.value, ChainNames(files[fi].messages, idxs)))
    ensures var sym := Symbol(files[fi].package.value, TypeDescriptors(ChainNames(files[fi].messages, idxs)));
            var tree := Populate(files);
            && ClassifyLocation(tree, files[fi], Location(MessagePath(idxs) + [MessageName], span))
               == Success(Some(Occurrence(sym, DefinitionRole, span)))
            && ClassifyLocation(tree, files[gi], Location(MessagePath(refIdxs) + [MessageField, k, FieldTypeName], refSpan))
               == Success(Some(Occurrence(sym, ReferenceRole, refSpan)))
  {
    MessageNamePath(files[fi], idxs);
    FieldTypePath(files[gi], refIdxs, k, []);
    assert MessagePath(refIdxs) + [MessageField, k, FieldTypeName] + [] == MessagePath(refIdxs) + [MessageField, k, FieldTypeName];
    MessageReferenceResolves(files, fi, idxs);
  }

  // ----- Dotted packages ----------------------------------------------------------

  /** A resolved reference's package never holds a `.`: only the piece of the
      type name after the leading `.` and before the next one is looked up. */
  lemma ResolvedPackageDotFree(tree: Tree, typeName: string)
    requires TreeWellFormed(tree)
    requires Resolve(tree, typeName).Success?
    ensures '.' !in Resolve(tree, typeName).value.package
  {
    var keys := TypeKeys(typeName);
    assert keys[0] == Split(typeName, '.')[1];
  }

  /** So a definition in a package whose name holds a `.` is never the
      target of a successful reference. */
  lemma DottedPackageNeverReferenced(tree: Tree, p: string, names: seq<string>, typeName: string)
    requires TreeWellFormed(tree) && '.' in p
    requires Resolve(tree, typeName).Success?
    ensures Resolve(tree, typeName).value != Symbol(p, TypeDescriptors(names))
  {
    ResolvedPackageDotFree(tree, typeName);
  }

  const FooFile := FileDecl(Some("a.proto"), Some("pkg.a"), [MessageDecl(Some("Foo"), [], [], [])], [], [])
  const BarFile := FileDecl(Some("b.proto"), Some("pkg.b"),
                            [MessageDecl(Some("Bar"), [FieldDecl(Some("foo"), Some(".pkg.a.Foo"))], [], [])], [], [])

  /** The pieces of `.pkg.a.Foo` looked up: `pkg`, then `a`, then `Foo`. */
  lemma DottedKeys()
    ensures TypeKeys(".pkg.a.Foo") == ["pkg", "a", "Foo"]
  {
    var parts := ["", "pkg", "a", "Foo"];
    assert parts[1..] == ["pkg", "a", "Foo"] && parts[1..][1..] == ["a", "Foo"] && parts[1..][1..][1..] == ["Foo"];
    assert Join(["Foo"], '.') == "Foo";
    assert Join(["a", "Foo"], '.') == "a" + "." + "Foo";
    assert Join(["pkg", "a", "Foo"], '.') == "pkg" + "." + ("a" + "." + "Foo");
    assert Join(parts, '.') == ".pkg.a.Foo";
    SplitJoin(parts, '.');
  }

  /** Two files, `Foo` in package `pkg.a` and a field of type `.pkg.a.Foo`
      in package `pkg.b`: the definition of `Foo` has package `pkg.a`, but
      the reference looks up the package `pkg`, which neither file declares,
      and aborts, in either file order. */
  lemma DottedPackageExample()
    ensures Decode(FooFile, [FileMessageType, 0, MessageName])
            == Success(Some(Descriptors([Descriptor("Foo", Type)])))
    ensures Decode(BarFile, [FileMessageType, 0, MessageField, 0, FieldTypeName])
            == Success(Some(TypeToResolve(".pkg.a.Foo")))
    ensures Resolve(Populate([FooFile, BarFile]), ".pkg.a.Foo") == Failure(UnresolvedType("pkg"))
    ensures Resolve(Populate([BarFile, FooFile]), ".pkg.a.Foo") == Failure(UnresolvedType("pkg"))
  {
    assert ValidChain(FooFile.messages, [0]) && ValidChain(BarFile.messages, [0]);
    MessageNamePath(FooFile, [0]);
    assert MessagePath([0]) + [MessageName] == [FileMessageType, 0, MessageName];
    assert ChainNames(FooFile.messages, [0]) == ["Foo"];
    assert TypeDescriptors(["Foo"]) == [Descriptor("Foo", Type)];
    FieldTypePath(BarFile, [0], 0, []);
    assert MessagePath([0]) + [MessageField, 0, FieldTypeName] + [] == [FileMessageType, 0, MessageField, 0, FieldTypeName];
    DottedKeys();
    assert |"pkg.a"| != |"pkg"| && |"pkg.b"| != |"pkg"|;
    NoPackagePkg([FooFile, BarFile]);
    NoPackagePkg([BarFile, FooFile]);
  }

  lemma NoPackagePkg(files: seq<FileDecl>)
    requires files == [FooFile, BarFile] || files == [BarFile, FooFile]
    ensures AllBuildable(files) && "pkg" !in Populate(files)
  {
    assert |"pkg.a"| != |"pkg"| && |"pkg.b"| != |"pkg"|;
    assert forall i :: 0 <= i < |files| ==> files[i] == FooFile || files[i] == BarFile;
    PopulatePackage(files, "pkg");
  }
}

=== FILE: decoder_properties.dfy ===
/** What the path decoder yields for each shape of path: the skipped shapes,
    the aborting ones, and the name and type-reference paths of messages,
    fields, enums and enum values at any nesting depth.
 */
module DecoderProperties {
  import opened Results
  import opened Schema
  import opened Scip
  import opened PathDecoder

  /** The steps `i0, 3, i1, 3, i2, ...` that, starting in a message
      collection, select message `i0` and then nested message `i1` of it, and so on. */
  function MessageSteps(idxs: seq<int>): (steps: seq<int>)
    requires |idxs| > 0
    ensures |steps| == 2 * |idxs| - 1 && steps[0] == idxs[0]
    decreases |idxs|
  {
    if |idxs| == 1 then [idxs[0]] else [idxs[0], MessageNestedType] + MessageSteps(idxs[1..])
  }

  /** The path, from a file, of the message reached through the indexes `idxs`. */
  function MessagePath(idxs: seq<int>): seq<int>
    requires |idxs| > 0
  {
    [FileMessageType] + MessageSteps(idxs)
  }

  /** Every index of `idxs` selects an existing, named message, the first in
      `msgs` and each later one among the nested messages of the previous. */
  predicate ValidChain(msgs: seq<MessageDecl>, idxs: seq<int>)
    decreases |idxs|
  {
    && |idxs| > 0
    && 0 <= idxs[0] < |msgs|
    && msgs[idxs[0]].name.Some?
    && (|idxs| > 1 ==> ValidChain(msgs[idxs[0]].nested, idxs[1..]))
  }

  /** The innermost message of the chain. */
  function Innermost(msgs: seq<MessageDecl>, idxs: seq<int>): (m: MessageDecl)
    requires ValidChain(msgs, idxs)
    ensures m.name.Some?
    ensures MessagesNamed(msgs) ==> MessageNamed(m)
    decreases |idxs|
  {
    if |idxs| == 1 then msgs[idxs[0]] else Innermost(msgs[idxs[0]].nested, idxs[1..])
  }

  /** The names of the enclosing messages of the innermost one, outermost first. */
  function OuterNames(msgs: seq<MessageDecl>, idxs: seq<int>): (names: seq<string>)
    requires ValidChain(msgs, idxs)
    ensures |names| == |idxs| - 1
    decreases |idxs|
  {
    if |idxs| == 1 then []
    else [msgs[idxs[0]].name.value] + OuterNames(msgs[idxs[0]].nested, idxs[1..])
  }

  /** The names of all messages of the chain, outermost first: the name by
      which the innermost message is known inside its package. */
  function ChainNames(msgs: seq<MessageDecl>, idxs: seq<int>): (names: seq<string>)
    requires ValidChain(msgs, idxs)
  {
    OuterNames(msgs, idxs) + [Innermost(msgs, idxs).name.value]
  }

  /** Descriptors of concatenated name lists concatenate. */
  lemma TypeDescriptorsAppend(a: seq<string>, b: seq<string>)
    ensures TypeDescriptors(a + b) == TypeDescriptors(a) + TypeDescriptors(b)
  {
  }

  /** Descriptors are only ever appended, at most one per path step: a
      result extends what was pushed before, by no more than the remaining
      path length. */
  lemma {:induction false} DecodeExtendsAccumulator(pos: Position, path: seq<int>, acc: seq<Descriptor>)
    ensures var r := DecodeFrom(pos, path, acc);
            r.Success? && r.value.Some? && r.value.value.Descriptors? ==>
              && |acc| <= |r.value.value.descriptors| <= |acc| + |path|
              && r.value.value.descriptors[..|acc|] == acc
    decreases |path|
  {
    if |path| > 0 {
      match Step(pos, path[0], |path| == 1)
      case Move(next) =>
        DecodeExtendsAccumulator(next, path[1..], acc);
      case Push(next, d) =>
        DecodeExtendsAccumulator(next, path[1..], acc + [d]);
        assert (acc + [d])[..|acc|] == acc;
      case _ =>
    }
  }

  // ----- Single steps -------------------------------------------------------

  /** An empty path ends the walk at once with no descriptors. */
  lemma EmptyPathYieldsNoDescriptors(f: FileDecl)
    ensures Decode(f, []) == Success(Some(Descriptors([])))
  {
  }

  /** A path that stops right after selecting the file's message or enum
      collection yields an empty descriptor list, not a skip. */
  lemma CollectionSelectorYieldsNoDescriptors(f: FileDecl)
    ensures Decode(f, [FileMessageType]) == Success(Some(Descriptors([])))
    ensures Decode(f, [FileEnumType]) == Success(Some(Descriptors([])))
  {
    assert [FileMessageType][1..] == [];
    assert DecodeFrom(AtFile(f), [FileMessageType], [])
        == DecodeFrom(AtMessages(f.messages), [], []);
    assert [FileEnumType][1..] == [];
    assert DecodeFrom(AtFile(f), [FileEnumType], [])
        == DecodeFrom(AtEnums(f.enums), [], []);
  }

  /** At a message without a name every step aborts, whatever the field
      number: the name is read before the field number is inspected. */
  lemma UnnamedMessageAborts(m: MessageDecl, path: seq<int>, acc: seq<Descriptor>)
    requires m.name.None? && |path| > 0
    ensures DecodeFrom(AtMessage(m), path, acc) == Failure(MissingName)
  {
  }

  /** A field number the decoder does not know at a declaration skips the
      location, whatever follows it (a message first checks its own name). */
  lemma UnrecognisedFieldSkips(pos: Position, path: seq<int>, acc: seq<Descriptor>)
    requires |path| > 0 && !pos.IsCollection() && !pos.Recognises(path[0])
    requires pos.AtMessage? ==> pos.message.name.Some?
    ensures DecodeFrom(pos, path, acc) == Success(None)
  {
  }

  /** Selecting an existing element as the very last step skips the location. */
  lemma LastIndexSkips(pos: Position, index: int, acc: seq<Descriptor>)
    requires pos.IsCollection() && 0 <= index < pos.CollectionLength()
    ensures DecodeFrom(pos, [index], acc) == Success(None)
  {
  }

  /** A negative index, or one at or past the end of the collection, aborts
      the run; it is never a skip. */
  lemma BadIndexFails(pos: Position, path: seq<int>, acc: seq<Descriptor>)
    requires pos.IsCollection() && |path| > 0
    requires !(0 <= path[0] < pos.CollectionLength())
    ensures DecodeFrom(pos, path, acc) == Failure(IndexOutOfRange)
  {
  }

  // ----- Descending through nested messages ---------------------------------

  /** One index step into a collection of messages that is not the last step. */
  lemma SelectMessage(msgs: seq<MessageDecl>, index: int, rest: seq<int>, acc: seq<Descriptor>)
    requires 0 <= index < |msgs| && |rest| > 0
    ensures DecodeFrom(AtMessages(msgs), [index] + rest, acc) == DecodeFrom(AtMessage(msgs[index]), rest, acc)
  {
    assert ([index] + rest)[1..] == rest;
  }

  /** A nested-type step at a named message pushes its name and enters its nested messages. */
  lemma EnterNested(m: MessageDecl, rest: seq<int>, acc: seq<Descriptor>)
    requires m.name.Some?
    ensures DecodeFrom(AtMessage(m), [MessageNestedType] + rest, acc)
         == DecodeFrom(AtMessages(m.nested), rest, acc + [Descriptor(m.name.value, Type)])
  {
    assert ([MessageNestedType] + rest)[1..] == rest;
  }

  /** Walking down a chain of nested messages pushes one `Type` segment per
      enclosing message, outermost first, and leaves the walk positioned on
      the innermost message with the rest of the path still to read. */
  lemma {:induction false} WalkMessageChain(
    msgs: seq<MessageDecl>, idxs: seq<int>, tail: seq<int>, acc: seq<Descriptor>)
    requires ValidChain(msgs, idxs) && |tail| > 0
    ensures DecodeFrom(AtMessages(msgs), MessageSteps(idxs) + tail, acc)
         == DecodeFrom(AtMessage(Innermost(msgs, idxs)), tail,
                       acc + TypeDescriptors(OuterNames(msgs, idxs)))
    decreases |idxs|
  {
    var m := msgs[idxs[0]];
    if |idxs| == 1 {
      assert MessageSteps(idxs) + tail == [idxs[0]] + tail;
      SelectMessage(msgs, idxs[0], tail, acc);
      assert acc + TypeDescriptors([]) == acc;
    } else {
      var inner := idxs[1..];
      var rest := MessageSteps(inner) + tail;
      var d := Descriptor(m.name.value, Type);
      assert MessageSteps(idxs) + tail == [idxs[0]] + ([MessageNestedType] + rest);
      SelectMessage(msgs, idxs[0], [MessageNestedType] + rest, acc);
      EnterNested(m, rest, acc);
      WalkMessageChain(m.nested, inner, tail, acc + [d]);
      TypeDescriptorsAppend([m.name.value], OuterNames(m.nested, inner));
      assert acc + TypeDescriptors(OuterNames(msgs, idxs))
          == (acc + [d]) + TypeDescriptors(OuterNames(m.nested, inner));
    }
  }

  // ----- Name and type-reference paths --------------------------------------

  /** The file's message-collection step. */
  lemma EnterFileMessages(f: FileDecl, rest: seq<int>)
    ensures Decode(f, [FileMessageType] + rest) == DecodeFrom(AtMessages(f.messages), rest, [])
  {
    assert ([FileMessageType] + rest)[1..] == rest;
  }

  /** The file's enum-collection step. */
  lemma EnterFileEnums(f: FileDecl, rest: seq<int>)
    ensures Decode(f, [FileEnumType] + rest) == DecodeFrom(AtEnums(f.enums), rest, [])
  {
    assert ([FileEnumType] + rest)[1..] == rest;
  }

  /** From a file, the message chain `idxs` leaves the walk at its innermost
      message having pushed the enclosing messages' names. */
  lemma WalkFromFile(f: FileDecl, idxs: seq<int>, tail: seq<int>)
    requires ValidChain(f.messages, idxs) && |tail| > 0
    ensures Decode(f, MessagePath(idxs) + tail)
         == DecodeFrom(AtMessage(Innermost(f.messages, idxs)), tail,
                       TypeDescriptors(OuterNames(f.messages, idxs)))
  {
    var steps := MessageSteps(idxs) + tail;
    var outer := TypeDescriptors(OuterNames(f.messages, idxs));
    assert MessagePath(idxs) + tail == [FileMessageType] + steps;
    assert [] + outer == outer;
    calc {
      Decode(f, MessagePath(idxs) + tail);
      Decode(f, [FileMessageType] + steps);
      { EnterFileMessages(f, steps); }
      DecodeFrom(AtMessages(f.messages), steps, []);
      { WalkMessageChain(f.messages, idxs, tail, []); }
      DecodeFrom(AtMessage(Innermost(f.messages, idxs)), tail, [] + outer);
    }
  }

  /** A last step at a named message, its name or one of its child
      collections, ends the walk with the message's own `Type` segment
      appended. */
  lemma LastStepAtMessage(m: MessageDecl, field: int, acc: seq<Descriptor>)
    requires m.name.Some?
    requires field == MessageName || field == MessageField || field == MessageNestedType || field == MessageEnumType
    ensures DecodeFrom(AtMessage(m), [field], acc)
         == Success(Some(Descriptors(acc + [Descriptor(m.name.value, Type)])))
  {
    assert [field][1..] == [];
  }

  /** The name path of a message at any depth yields one `Type` segment per
      message of its chain, ending with its own. */
  lemma MessageNamePath(f: FileDecl, idxs: seq<int>)
    requires ValidChain(f.messages, idxs)
    ensures Decode(f, MessagePath(idxs) + [MessageName])
         == Success(Some(Descriptors(TypeDescriptors(ChainNames(f.messages, idxs)))))
  {
    var m := Innermost(f.messages, idxs);
    var outer := TypeDescriptors(OuterNames(f.messages, idxs));
    WalkFromFile(f, idxs, [MessageName]);
    LastStepAtMessage(m, MessageName, outer);
    TypeDescriptorsAppend(OuterNames(f.messages, idxs), [m.name.value]);
    assert TypeDescriptors([m.name.value]) == [Descriptor(m.name.value, Type)];
    assert TypeDescriptors(ChainNames(f.messages, idxs)) == outer + [Descriptor(m.name.value, Type)];
  }

  /** A path that stops right after selecting a message's field collection
      yields the descriptors pushed so far: one per message of the chain. */
  lemma FieldCollectionPath(f: FileDecl, idxs: seq<int>)
    requires ValidChain(f.messages, idxs)
    ensures Decode(f, MessagePath(idxs) + [MessageField])
         == Success(Some(Descriptors(TypeDescriptors(ChainNames(f.messages, idxs)))))
  {
    var m := Innermost(f.messages, idxs);
    var outer := TypeDescriptors(OuterNames(f.messages, idxs));
    WalkFromFile(f, idxs, [MessageField]);
    LastStepAtMessage(m, MessageField, outer);
    TypeDescriptorsAppend(OuterNames(f.messages, idxs), [m.name.value]);
    assert TypeDescriptors([m.name.value]) == [Descriptor(m.name.value, Type)];
    assert TypeDescriptors(ChainNames(f.messages, idxs)) == outer + [Descriptor(m.name.value, Type)];
  }

  /** A path that stops at any of a message's child collections (fields,
      nested messages or nested enums) yields the chain's `Type` segments:
      the walk ends with no check of the last step. */
  lemma MessageCollectionPath(f: FileDecl, idxs: seq<int>, field: int)
    requires ValidChain(f.messages, idxs)
    requires field == MessageField || field == MessageNestedType || field == MessageEnumType
    ensures Decode(f, MessagePath(idxs) + [field])
         == Success(Some(Descriptors(TypeDescriptors(ChainNames(f.messages, idxs)))))
  {
    WalkFromFile(f, idxs, [field]);
    LastStepAtMessage(Innermost(f.messages, idxs), field, TypeDescriptors(OuterNames(f.messages, idxs)));
    ChainDescriptorsSplit(f.messages, idxs);
  }

  /** A path that ends on a message's index skips the location. */
  lemma MessageIndexPathSkips(f: FileDecl, idxs: seq<int>)
    requires ValidChain(f.messages, idxs)
    ensures Decode(f, MessagePath(idxs)) == Success(None)
    decreases |idxs|
  {
    if |idxs| == 1 {
      assert MessagePath(idxs) == [FileMessageType] + [idxs[0]];
      EnterFileMessages(f, [idxs[0]]);
    } else {
      var outer := idxs[..|idxs| - 1];
      assert ValidChain(f.messages, outer) && Innermost(f.messages, outer).nested == Innermost(f.messages, outer).nested by {
        ChainPrefix(f.messages, idxs);
      }
      ChainPrefix(f.messages, idxs);
      assert MessagePath(idxs) == MessagePath(outer) + [MessageNestedType, idxs[|idxs| - 1]] by {
        MessageStepsSnoc(idxs);
      }
      var last := Innermost(f.messages, outer);
      WalkFromFile(f, outer, [MessageNestedType, idxs[|idxs| - 1]]);
      assert [MessageNestedType, idxs[|idxs| - 1]][1..] == [idxs[|idxs| - 1]];
    }
  }

  /** Dropping the last index of a chain of two or more leaves a chain whose
      innermost message holds the dropped one among its nested messages. */
  lemma {:induction false} ChainPrefix(msgs: seq<MessageDecl>, idxs: seq<int>)
    requires ValidChain(msgs, idxs) && |idxs| > 1
    ensures ValidChain(msgs, idxs[..|idxs| - 1])
    ensures var outer := Innermost(msgs, idxs[..|idxs| - 1]);
            0 <= idxs[|idxs| - 1] < |outer.nested|
            && outer.nested[idxs[|idxs| - 1]] == Innermost(msgs, idxs)
    decreases |idxs|
  {
    var m := msgs[idxs[0]];
    if |idxs| > 2 {
      ChainPrefix(m.nested, idxs[1..]);
      assert idxs[1..][..|idxs[1..]| - 1] == idxs[..|idxs| - 1][1..];
    } else {
      assert idxs[..1] == [idxs[0]];
    }
  }

  /** The steps of a chain end with the nested-type step and the last index. */
  lemma {:induction false} MessageStepsSnoc(idxs: seq<int>)
    requires |idxs| > 1
    ensures MessageSteps(idxs)
         == MessageSteps(idxs[..|idxs| - 1]) + [MessageNestedType, idxs[|idxs| - 1]]
    decreases |idxs|
  {
    if |idxs| > 2 {
      MessageStepsSnoc(idxs[1..]);
      assert idxs[1..][..|idxs[1..]| - 1] == idxs[..|idxs| - 1][1..];
    } else {
      assert idxs[..1] == [idxs[0]];
    }
  }

  // ----- Fields, enums and enum values --------------------------------------

  /** Entering field `k` of a named message pushes the message's name. */
  lemma SelectField(m: MessageDecl, k: int, more: seq<int>, acc: seq<Descriptor>)
    requires m.name.Some? && 0 <= k < |m.fields| && |more| > 0
    ensures DecodeFrom(AtMessage(m), [MessageField, k] + more, acc)
         == DecodeFrom(AtField(m.fields[k]), more, acc + [Descriptor(m.name.value, Type)])
  {
    assert ([MessageField, k] + more)[1..] == [k] + more;
    assert ([k] + more)[1..] == more;
  }

  /** Entering nested enum `e` of a named message pushes the message's name. */
  lemma SelectNestedEnum(m: MessageDecl, e: int, more: seq<int>, acc: seq<Descriptor>)
    requires m.name.Some? && 0 <= e < |m.enums| && |more| > 0
    ensures DecodeFrom(AtMessage(m), [MessageEnumType, e] + more, acc)
         == DecodeFrom(AtEnum(m.enums[e]), more, acc + [Descriptor(m.name.value, Type)])
  {
    assert ([MessageEnumType, e] + more)[1..] == [e] + more;
    assert ([e] + more)[1..] == more;
  }

  /** Entering top-level enum `e` of a file pushes nothing. */
  lemma SelectTopEnum(f: FileDecl, e: int, more: seq<int>)
    requires 0 <= e < |f.enums| && |more| > 0
    ensures Decode(f, [FileEnumType, e] + more) == DecodeFrom(AtEnum(f.enums[e]), more, [])
  {
    assert [FileEnumType, e] + more == [FileEnumType] + ([e] + more);
    assert ([e] + more)[1..] == more;
    calc {
      Decode(f, [FileEnumType, e] + more);
      Decode(f, [FileEnumType] + ([e] + more));
      { EnterFileEnums(f, [e] + more); }
      DecodeFrom(AtEnums(f.enums), [e] + more, []);
      DecodeFrom(AtEnum(f.enums[e]), more, []);
    }
  }

  /** The name step at a field yields its `Term` segment, or aborts if it has no name. */
  lemma FieldNameStep(fd: FieldDecl, acc: seq<Descriptor>)
    ensures fd.name.Some? ==>
              DecodeFrom(AtField(fd), [FieldName], acc)
              == Success(Some(Descriptors(acc + [Descriptor(fd.name.value, Term)])))
    ensures fd.name.None? ==> DecodeFrom(AtField(fd), [FieldName], acc) == Failure(MissingName)
  {
    assert [FieldName][1..] == [];
  }

  /** The type-name step at a field ends the walk with the field's type name,
      whatever else the path holds, or aborts if it has none. */
  lemma FieldTypeStep(fd: FieldDecl, more: seq<int>, acc: seq<Descriptor>)
    ensures fd.typeName.Some? ==>
              DecodeFrom(AtField(fd), [FieldTypeName] + more, acc)
              == Success(Some(TypeToResolve(fd.typeName.value)))
    ensures fd.typeName.None? ==>
              DecodeFrom(AtField(fd), [FieldTypeName] + more, acc) == Failure(MissingTypeName)
  {
  }

  /** The name step at an enum yields its `Type` segment, or aborts if it has no name. */
  lemma EnumNameStep(en: EnumDecl, acc: seq<Descriptor>)
    ensures en.name.Some? ==>
              DecodeFrom(AtEnum(en), [EnumName], acc)
              == Success(Some(Descriptors(acc + [Descriptor(en.name.value, Type)])))
    ensures en.name.None? ==> DecodeFrom(AtEnum(en), [EnumName], acc) == Failure(MissingName)
  {
    assert [EnumName][1..] == [];
  }

  /** The name path of value `v` of an enum yields its `Term` segment after
      the descriptors pushed before the enum: nothing is pushed for the enum
      itself, not even when its name is missing. */
  lemma EnumValueNameSteps(en: EnumDecl, v: int, acc: seq<Descriptor>)
    requires 0 <= v < |en.values|
    ensures en.values[v].name.Some? ==>
              DecodeFrom(AtEnum(en), [EnumValue, v, EnumValueName], acc)
              == Success(Some(Descriptors(acc + [Descriptor(en.values[v].name.value, Term)])))
    ensures en.values[v].name.None? ==>
              DecodeFrom(AtEnum(en), [EnumValue, v, EnumValueName], acc) == Failure(MissingName)
  {
    assert [EnumValue, v, EnumValueName][1..] == [v, EnumValueName];
    assert [v, EnumValueName][1..] == [EnumValueName];
    assert [EnumValueName][1..] == [];
    var val := en.values[v];
    calc {
      DecodeFrom(AtEnum(en), [EnumValue, v, EnumValueName], acc);
      DecodeFrom(AtValues(en.values), [v, EnumValueName], acc);
      DecodeFrom(AtValue(val), [EnumValueName], acc);
    }
    if val.name.Some? {
      calc {
        DecodeFrom(AtValue(val), [EnumValueName], acc);
        DecodeFrom(AtValue(val), [], acc + [Descriptor(val.name.value, Term)]);
      }
    }
  }

  /** The name path of field `k` of a message at any depth: one `Type`
      segment per message of the chain, then the field's `Term` segment. */
  lemma FieldNamePath(f: FileDecl, idxs: seq<int>, k: int)
    requires ValidChain(f.messages, idxs)
    requires 0 <= k < |Innermost(f.messages, idxs).fields|
    ensures var fd := Innermost(f.messages, idxs).fields[k];
            var path := MessagePath(idxs) + [MessageField, k, FieldName];
            && (fd.name.Some? ==>
                  Decode(f, path) == Success(Some(Descriptors(
                    TypeDescriptors(ChainNames(f.messages, idxs)) + [Descriptor(fd.name.value, Term)]))))
            && (fd.name.None? ==> Decode(f, path) == Failure(MissingName))
  {
    var m := Innermost(f.messages, idxs);
    var outer := TypeDescriptors(OuterNames(f.messages, idxs));
    WalkFromFile(f, idxs, [MessageField, k, FieldName]);
    assert [MessageField, k, FieldName] == [MessageField, k] + [FieldName];
    SelectField(m, k, [FieldName], outer);
    FieldNameStep(m.fields[k], outer + [Descriptor(m.name.value, Type)]);
    ChainDescriptorsSplit(f.messages, idxs);
  }

  /** The type-reference path of field `k` of a message at any depth yields
      exactly that field's type name: the segments pushed on the way and any
      steps after the type-name step are dropped. */
  lemma FieldTypePath(f: FileDecl, idxs: seq<int>, k: int, more: seq<int>)
    requires ValidChain(f.messages, idxs)
    requires 0 <= k < |Innermost(f.messages, idxs).fields|
    ensures var fd := Innermost(f.messages, idxs).fields[k];
            var path := MessagePath(idxs) + [MessageField, k, FieldTypeName] + more;
            && (fd.typeName.Some? ==> Decode(f, path) == Success(Some(TypeToResolve(fd.typeName.value))))
            && (fd.typeName.None? ==> Decode(f, path) == Failure(MissingTypeName))
  {
    var m := Innermost(f.messages, idxs);
    var outer := TypeDescriptors(OuterNames(f.messages, idxs));
    var tail := [MessageField, k] + ([FieldTypeName] + more);
    assert MessagePath(idxs) + [MessageField, k, FieldTypeName] + more == MessagePath(idxs) + tail;
    WalkFromFile(f, idxs, tail);
    SelectField(m, k, [FieldTypeName] + more, outer);
    FieldTypeStep(m.fields[k], more, outer + [Descriptor(m.name.value, Type)]);
  }

  /** The name path of enum `e` nested in a message at any depth: one `Type`
      segment per message of the chain, then the enum's own `Type` segment. */
  lemma NestedEnumNamePath(f: FileDecl, idxs: seq<int>, e: int)
    requires ValidChain(f.messages, idxs)
    requires 0 <= e < |Innermost(f.messages, idxs).enums|
    ensures var en := Innermost(f.messages, idxs).enums[e];
            var path := MessagePath(idxs) + [MessageEnumType, e, EnumName];
            && (en.name.Some? ==>
                  Decode(f, path) == Success(Some(Descriptors(
                    TypeDescriptors(ChainNames(f.messages, idxs)) + [Descriptor(en.name.value, Type)]))))
            && (en.name.None? ==> Decode(f, path) == Failure(MissingName))
  {
    var m := Innermost(f.messages, idxs);
    var outer := TypeDescriptors(OuterNames(f.messages, idxs));
    WalkFromFile(f, idxs, [MessageEnumType, e, EnumName]);
    assert [MessageEnumType, e, EnumName] == [MessageEnumType, e] + [EnumName];
    SelectNestedEnum(m, e, [EnumName], outer);
    EnumNameStep(m.enums[e], outer + [Descriptor(m.name.value, Type)]);
    ChainDescriptorsSplit(f.messages, idxs);
  }

  /** The name path of value `v` of enum `e` nested in a message at any
      depth: one `Type` segment per message of the chain, then the value's
      `Term` segment, and none for the enum. */
  lemma NestedEnumValueNamePath(f: FileDecl, idxs: seq<int>, e: int, v: int)
    requires ValidChain(f.messages, idxs)
    requires 0 <= e < |Innermost(f.messages, idxs).enums|
    requires 0 <= v < |Innermost(f.messages, idxs).enums[e].values|
    ensures var val := Innermost(f.messages, idxs).enums[e].values[v];
            var path := MessagePath(idxs) + [MessageEnumType, e, EnumValue, v, EnumValueName];
            && (val.name.Some? ==>
                  Decode(f, path) == Success(Some(Descriptors(
                    TypeDescriptors(ChainNames(f.messages, idxs)) + [Descriptor(val.name.value, Term)]))))
            && (val.name.None? ==> Decode(f, path) == Failure(MissingName))
  {
    var m := Innermost(f.messages, idxs);
    var outer := TypeDescriptors(OuterNames(f.messages, idxs));
    WalkFromFile(f, idxs, [MessageEnumType, e, EnumValue, v, EnumValueName]);
    assert [MessageEnumType, e, EnumValue, v, EnumValueName]
        == [MessageEnumType, e] + [EnumValue, v, EnumValueName];
    SelectNestedEnum(m, e, [EnumValue, v, EnumValueName], outer);
    EnumValueNameSteps(m.enums[e], v, outer + [Descriptor(m.name.value, Type)]);
    ChainDescriptorsSplit(f.messages, idxs);
  }

  /** The name path of a top-level enum yields its single `Type` segment. */
  lemma TopEnumNamePath(f: FileDecl, e: int)
    requires 0 <= e < |f.enums|
    ensures var en := f.enums[e];
            && (en.name.Some? ==>
                  Decode(f, [FileEnumType, e, EnumName])
                  == Success(Some(Descriptors([Descriptor(en.name.value, Type)]))))
            && (en.name.None? ==> Decode(f, [FileEnumType, e, EnumName]) == Failure(MissingName))
  {
    assert [FileEnumType, e, EnumName] == [FileEnumType, e] + [EnumName];
    SelectTopEnum(f, e, [EnumName]);
    EnumNameStep(f.enums[e], []);
    if f.enums[e].name.Some? {
      var d := Descriptor(f.enums[e].name.value, Type);
      assert [] + [d] == [d];
    }
  }

  /** The name path of a value of a top-level enum yields its single `Term`
      segment: the enum contributes nothing. */
  lemma TopEnumValueNamePath(f: FileDecl, e: int, v: int)
    requires 0 <= e < |f.enums| && 0 <= v < |f.enums[e].values|
    ensures var val := f.enums[e].values[v];
            var path := [FileEnumType, e, EnumValue, v, EnumValueName];
            && (val.name.Some? ==>
                  Decode(f, path) == Success(Some(Descriptors([Descriptor(val.name.value, Term)]))))
            && (val.name.None? ==> Decode(f, path) == Failure(MissingName))
  {
    assert [FileEnumType, e, EnumValue, v, EnumValueName]
        == [FileEnumType, e] + [EnumValue, v, EnumValueName];
    SelectTopEnum(f, e, [EnumValue, v, EnumValueName]);
    EnumValueNameSteps(f.enums[e], v, []);
    if f.enums[e].values[v].name.Some? {
      var d := Descriptor(f.enums[e].values[v].name.value, Term);
      assert [] + [d] == [d];
    }
  }

  /** A path that stops at a top-level enum's value collection yields no
      descriptors: the enum pushes its name only for its name step. */
  lemma TopEnumValuesPath(f: FileDecl, e: int)
    requires 0 <= e < |f.enums|
    ensures Decode(f, [FileEnumType, e, EnumValue]) == Success(Some(Descriptors([])))
  {
    SelectTopEnum(f, e, [EnumValue]);
    assert [FileEnumType, e, EnumValue] == [FileEnumType, e] + [EnumValue];
    assert [EnumValue][1..] == [];
    assert DecodeFrom(AtEnum(f.enums[e]), [EnumValue], []) == DecodeFrom(AtValues(f.enums[e].values), [], []);
  }

  /** A path that stops at a nested enum's value collection yields the
      chain's `Type` segments and none for the enum. */
  lemma NestedEnumValuesPath(f: FileDecl, idxs: seq<int>, e: int)
    requires ValidChain(f.messages, idxs)
    requires 0 <= e < |Innermost(f.messages, idxs).enums|
    ensures Decode(f, MessagePath(idxs) + [MessageEnumType, e, EnumValue])
         == Success(Some(Descriptors(TypeDescriptors(ChainNames(f.messages, idxs)))))
  {
    var m := Innermost(f.messages, idxs);
    var outer := TypeDescriptors(OuterNames(f.messages, idxs));
    var own := outer + [Descriptor(m.name.value, Type)];
    WalkFromFile(f, idxs, [MessageEnumType, e, EnumValue]);
    assert [MessageEnumType, e, EnumValue] == [MessageEnumType, e] + [EnumValue];
    SelectNestedEnum(m, e, [EnumValue], outer);
    assert [EnumValue][1..] == [];
    assert DecodeFrom(AtEnum(m.enums[e]), [EnumValue], own) == DecodeFrom(AtValues(m.enums[e].values), [], own);
    ChainDescriptorsSplit(f.messages, idxs);
  }

  /** The chain's descriptors are those of the enclosing messages followed by
      the innermost message's own. */
  lemma ChainDescriptorsSplit(msgs: seq<MessageDecl>, idxs: seq<int>)
    requires ValidChain(msgs, idxs)
    ensures TypeDescriptors(ChainNames(msgs, idxs))
         == TypeDescriptors(OuterNames(msgs, idxs)) + [Descriptor(Innermost(msgs, idxs).name.value, Type)]
  {
    TypeDescriptorsAppend(OuterNames(msgs, idxs), [Innermost(msgs, idxs).name.value]);
    assert TypeDescriptors([Innermost(msgs, idxs).name.value]) == [Descriptor(Innermost(msgs, idxs).name.value, Type)];
  }
}

=== FILE: path_decoder.dfy ===
/** The source-location path decoder (`get_descriptors_from_path`).

    A path is read against the field numbers of `descriptor.proto`: at a file
    it selects the message or enum collection, in a collection it selects one
    element by index, at a declaration it either names the declaration itself
    or selects a child collection.  The walk starts at a file with no
    descriptors and yields no result (`None`), the descriptors collected so far,
    or the type name a field refers to.
 */
module PathDecoder {
  import opened Results
  import opened Schema
  import opened Scip

  /** Where the walk currently stands (`DescriptorPathSegment`). */
  datatype Position =
    | AtFile(file: FileDecl)
    | AtMessages(messages: seq<MessageDecl>)
    | AtMessage(message: MessageDecl)
    | AtEnums(enums: seq<EnumDecl>)
    | AtEnum(en: EnumDecl)
    | AtFields(fields: seq<FieldDecl>)
    | AtField(field: FieldDecl)
    | AtValues(values: seq<EnumValueDecl>)
    | AtValue(value: EnumValueDecl)
  {
    /** A collection, entered by its field number and left by an index. */
    predicate IsCollection() {
      AtMessages? || AtEnums? || AtFields? || AtValues?
    }

    function CollectionLength(): nat
      requires IsCollection()
    {
      match this
      case AtMessages(ms) => |ms|
      case AtEnums(es) => |es|
      case AtFields(fs) => |fs|
      case AtValues(vs) => |vs|
    }

    /** The field numbers the decoder understands at a declaration. */
    predicate Recognises(field: int)
      requires !IsCollection()
    {
      match this
      case AtFile(_) => field == FileMessageType || field == FileEnumType
      case AtMessage(_) =>
        field == MessageName || field == MessageField
        || field == MessageNestedType || field == MessageEnumType
      case AtEnum(_) => field == EnumName || field == EnumValue
      case AtField(_) => field == FieldName || field == FieldTypeName
      case AtValue(_) => field == EnumValueName
    }
  }

  /** `DescriptorsFromPathResult`. */
  datatype PathResult = Descriptors(descriptors: seq<Descriptor>) | TypeToResolve(typeName: string)

  /** The outcome of decoding: an abort, no result (the location is skipped), or a result. */
  type Decoded = Result<Option<PathResult>>

  /** What one path step does at a position. */
  datatype Transition =
    | Abort(error: Error)                              // the run fails
    | Skip                                             // no result: the location is skipped
    | Refer(typeName: string)                          // a field's type reference ends the walk
    | Move(next: Position)                             // go on at `next`
    | Push(next: Position, pushed: Descriptor)         // push a descriptor, then go on at `next`

  /** The step `field` at `pos`; `isLast` tells whether it is the last step of
      the path.  An index selects an element and is checked before the "last
      step" test, so an out-of-range index aborts even as the last step.  A
      message pushes its own name on every step taken at it, before its field
      number is inspected; an enum pushes its name only for its name step
      (field 1), so stepping into an enum's values pushes nothing. */
  function Step(pos: Position, field: int, isLast: bool): Transition {
    match pos
    case AtFile(f) =>
      if field == FileMessageType then Move(AtMessages(f.messages))
      else if field == FileEnumType then Move(AtEnums(f.enums))
      else Skip
    case AtMessages(msgs) =>
      if !(0 <= field < |msgs|) then Abort(IndexOutOfRange)
      else if isLast then Skip
      else Move(AtMessage(msgs[field]))
    case AtMessage(m) =>
      if m.name.None? then Abort(MissingName)
      else
        var own := Descriptor(m.name.value, Type);
        if field == MessageName then Push(pos, own)
        else if field == MessageField then Push(AtFields(m.fields), own)
        else if field == MessageNestedType then Push(AtMessages(m.nested), own)
        else if field == MessageEnumType then Push(AtEnums(m.enums), own)
        else Skip
    case AtEnums(enums) =>
      if !(0 <= field < |enums|) then Abort(IndexOutOfRange)
      else if isLast then Skip
      else Move(AtEnum(enums[field]))
    case AtEnum(e) =>
      if field == EnumName then
        if e.name.None? then Abort(MissingName)
        else Push(pos, Descriptor(e.name.value, Type))
      else if field == EnumValue then Move(AtValues(e.values))
      else Skip
    case AtFields(fields) =>
      if !(0 <= field < |fields|) then Abort(IndexOutOfRange)
      else if isLast then Skip
      else Move(AtField(fields[field]))
    case AtField(fd) =>
      if field == FieldName then
        if fd.name.None? then Abort(MissingName)
        else Push(pos, Descriptor(fd.name.value, Term))
      else if field == FieldTypeName then
        if fd.typeName.None? then Abort(MissingTypeName)
        else Refer(fd.typeName.value)
      else Skip
    case AtValues(values) =>
      if !(0 <= field < |values|) then Abort(IndexOutOfRange)
      else if isLast then Skip
      else Move(AtValue(values[field]))
    case AtValue(v) =>
      if field == EnumValueName then
        if v.name.None? then Abort(MissingName)
        else Push(pos, Descriptor(v.name.value, Term))
      else Skip
  }

  /** Continues the walk at `pos` over the remaining `path`, `acc` holding the
      descriptors pushed so far; a path that runs out yields them. */
  function DecodeFrom(pos: Position, path: seq<int>, acc: seq<Descriptor>): Decoded
    decreases |path|
  {
    if |path| == 0 then Success(Some(Descriptors(acc)))
    else
      match Step(pos, path[0], |path| == 1)
      case Abort(e) => Failure(e)
      case Skip => Success(None)
      case Refer(t) => Success(Some(TypeToResolve(t)))
      case Move(next) => DecodeFrom(next, path[1..], acc)
      case Push(next, d) => DecodeFrom(next, path[1..], acc + [d])
  }

  /** Decoding a location path of file `f`. */
  function Decode(f: FileDecl, path: seq<int>): Decoded {
    DecodeFrom(AtFile(f), path, [])
  }

  /** The decoder as the source writes it: one loop over the path that
      updates the current position and the pushed descriptors in place. */
  method DecodePath(f: FileDecl, path: seq<int>) returns (r: Decoded)
    ensures r == Decode(f, path)
  {
    var pos := AtFile(f);
    var acc: seq<Descriptor> := [];
    var i := 0;
    while i < |path|
      invariant 0 <= i <= |path|
      invariant DecodeFrom(pos, path[i..], acc) == Decode(f, path)
    {
      var field := path[i];
      assert path[i..][1..] == path[i + 1..];
      match pos {
        case AtFile(file) =>
          if field == FileMessageType {
            pos := AtMessages(file.messages);
          } else if field == FileEnumType {
            pos := AtEnums(file.enums);
          } else {
            return Success(None);
          }
        case AtMessages(msgs) =>
          if !(0 <= field < |msgs|) {
            return Failure(IndexOutOfRange);
          }
          pos := AtMessage(msgs[field]);
          if i == |path| - 1 {
            return Success(None);
          }
        case AtMessage(m) =>
          if m.name.None? {
            return Failure(MissingName);
          }
          acc := acc + [Descriptor(m.name.value, Type)];
          if field == MessageName {
          } else if field == MessageField {
            pos := AtFields(m.fields);
          } else if field == MessageNestedType {
            pos := AtMessages(m.nested);
          } else if field == MessageEnumType {
            pos := AtEnums(m.enums);
          } else {
            return Success(None);
          }
        case AtEnums(enums) =>
          if !(0 <= field < |enums|) {
            return Failure(IndexOutOfRange);
          }
          pos := AtEnum(enums[field]);
          if i == |path| - 1 {
            return Success(None);
          }
        case AtEnum(e) =>
          if field == EnumName {
            if e.name.None? {
              return Failure(MissingName);
            }
            acc := acc + [Descriptor(e.name.value, Type)];
          } else if field == EnumValue {
            pos := AtValues(e.values);
          } else {
            return Success(None);
          }
        case AtFields(fields) =>
          if !(0 <= field < |fields|) {
            return Failure(IndexOutOfRange);
          }
          pos := AtField(fields[field]);
          if i == |path| - 1 {
            return Success(None);
          }
        case AtField(fd) =>
          if field == FieldName {
            if fd.name.None? {
              return Failure(MissingName);
            }
            acc := acc + [Descriptor(fd.name.value, Term)];
          } else if field == FieldTypeName {
            if fd.typeName.None? {
              return Failure(MissingTypeName);
            }
            return Success(Some(TypeToResolve(fd.typeName.value)));
          } else {
            return Success(None);
          }
        case AtValues(values) =>
          if !(0 <= field < |values|) {
            return Failure(IndexOutOfRange);
          }
          pos := AtValue(values[field]);
          if i == |path| - 1 {
            return Success(None);
          }
        case AtValue(v) =>
          if field == EnumValueName {
            if v.name.None? {
              return Failure(MissingName);
            }
            acc := acc + [Descriptor(v.name.value, Term)];
          } else {
            return Success(None);
          }
      }
      i := i + 1;
    }
    return Success(Some(Descriptors(acc)));
  }
}

=== FILE: resolver.dfy ===
/** Resolution of a field's type reference against the type tree.

    A fully qualified type name such as `.pkg.Outer.Inner` is split at every
    `.`, the piece before the first `.` is dropped, the next piece is looked
    up among the packages and every further piece among the children of the
    node reached so far.  The package node gives the symbol's package name;
    every other node met on the way gives one `Type` descriptor.
 */
module Resolver {
  import opened Results
  import opened Scip
  import opened TypeTree

  // ----- Splitting and joining ------------------------------------------------

  /** `str::split` with a one-character separator: the pieces between
      separators, including empty ones, so there is always at least one. */
  function Split(s: string, sep: char): (parts: seq<string>)
    ensures |parts| >= 1
    ensures forall i :: 0 <= i < |parts| ==> sep !in parts[i]
  {
    if |s| == 0 then [""]
    else if s[0] == sep then [""] + Split(s[1..], sep)
    else
      var rest := Split(s[1..], sep);
      [[s[0]] + rest[0]] + rest[1..]
  }

  /** The pieces glued back together with the separator between neighbours. */
  function Join(parts: seq<string>, sep: char): string
    requires |parts| >= 1
  {
    if |parts| == 1 then parts[0] else parts[0] + [sep] + Join(parts[1..], sep)
  }

  /** Joining the pieces of a split gives back the string. */
  lemma {:induction false} JoinSplit(s: string, sep: char)
    ensures Join(Split(s, sep), sep) == s
  {
    if |s| == 0 {
    } else if s[0] == sep {
      JoinSplit(s[1..], sep);
      assert ([""] + Split(s[1..], sep))[1..] == Split(s[1..], sep);
      assert s == [sep] + s[1..];
    } else {
      var rest := Split(s[1..], sep);
      JoinSplit(s[1..], sep);
      var parts := [[s[0]] + rest[0]] + rest[1..];
      assert s == [s[0]] + s[1..];
      if |rest| == 1 {
        assert Join(rest, sep) == rest[0];
      } else {
        assert parts[1..] == rest[1..];
        assert Join(rest, sep) == rest[0] + [sep] + Join(rest[1..], sep);
      }
    }
  }

  /** A string without the separator is a single piece. */
  lemma {:induction false} SplitNoSep(s: string, sep: char)
    requires sep !in s
    ensures Split(s, sep) == [s]
  {
    if |s| > 0 {
      assert sep !in s[1..] by {
        forall k | 0 <= k < |s[1..]| ensures s[1..][k] != sep { assert s[1..][k] == s[k + 1]; }
      }
      SplitNoSep(s[1..], sep);
      assert s == [s[0]] + s[1..];
    }
  }

  /** A separator-free piece followed by the separator splits off as a whole. */
  lemma {:induction false} SplitPrefix(a: string, sep: char, rest: string)
    requires sep !in a
    ensures Split(a + [sep] + rest, sep) == [a] + Split(rest, sep)
    decreases |a|
  {
    var s := a + [sep] + rest;
    if |a| == 0 {
      assert s == [sep] + rest;
      assert s[1..] == rest;
    } else {
      assert s[0] == a[0] && a[0] != sep;
      assert s[1..] == a[1..] + [sep] + rest;
      assert sep !in a[1..] by {
        forall k | 0 <= k < |a[1..]| ensures a[1..][k] != sep { assert a[1..][k] == a[k + 1]; }
      }
      SplitPrefix(a[1..], sep, rest);
      assert a == [a[0]] + a[1..];
    }
  }

  /** Splitting undoes joining when no piece holds the separator. */
  lemma {:induction false} SplitJoin(parts: seq<string>, sep: char)
    requires |parts| >= 1
    requires forall i :: 0 <= i < |parts| ==> sep !in parts[i]
    ensures Split(Join(parts, sep), sep) == parts
  {
    if |parts| == 1 {
      SplitNoSep(parts[0], sep);
    } else {
      SplitJoin(parts[1..], sep);
      SplitPrefix(parts[0], sep, Join(parts[1..], sep));
      assert parts == [parts[0]] + parts[1..];
    }
  }

  // ----- Walking the tree -----------------------------------------------------

  /** `type_tree_value_to_descriptor`: a message or enum node is a `Type`
      descriptor under its own name; a package node cannot be one. */
  function NodeDescriptor(n: TypeNode): (r: Result<Descriptor>)
    ensures r.Success? <==> !n.kind.PackageKind?
    ensures r.Success? ==> r.value.name == n.name && r.value.suffix == Type
  {
    match n.kind
    case PackageKind => Failure(PackageAsType)
    case MessageKind(_) => Success(Descriptor(n.name, Type))
    case EnumKind(_) => Success(Descriptor(n.name, Type))
  }

  /** Follows `keys` down from `node`, one child per key, collecting the
      descriptor of every child reached; a missing key aborts with that key. */
  function WalkChildren(node: TypeNode, keys: seq<string>): (r: Result<seq<Descriptor>>)
    ensures r.Success? ==> |r.value| == |keys|
    ensures r.Failure? ==> r.error == PackageAsType || (r.error.UnresolvedType? && r.error.key in keys)
    decreases |keys|
  {
    if |keys| == 0 then Success([])
    else if keys[0] !in node.children then Failure(UnresolvedType(keys[0]))
    else
      var child := node.children[keys[0]];
      var d :- NodeDescriptor(child);
      var rest :- WalkChildren(child, keys[1..]);
      Success([d] + rest)
  }

  /** The node `keys` leads to from `node`, if every key is present. */
  function Lookup(node: TypeNode, keys: seq<string>): Option<TypeNode>
    decreases |keys|
  {
    if |keys| == 0 then Some(node)
    else if keys[0] !in node.children then None
    else Lookup(node.children[keys[0]], keys[1..])
  }

  /** In a well-formed node the walk succeeds exactly when every key is
      present along the way, and then yields one `Type` descriptor per key,
      named by the key. */
  lemma {:induction false} WalkWellFormed(node: TypeNode, keys: seq<string>)
    requires WellFormed(node)
    ensures WalkChildren(node, keys).Success? <==> Lookup(node, keys).Some?
    ensures WalkChildren(node, keys).Success? ==> WalkChildren(node, keys).value == TypeDescriptors(keys)
    decreases |keys|
  {
    if |keys| > 0 && keys[0] in node.children {
      var child := node.children[keys[0]];
      assert child.name == keys[0] && ChildOk(child);
      WalkWellFormed(child, keys[1..]);
    }
  }

  // ----- Resolving a type name -------------------------------------------------

  /** The pieces of a type name that are looked up: all but the first. */
  function TypeKeys(typeName: string): seq<string> {
    Split(typeName, '.')[1..]
  }

  /** The symbol a type reference denotes (`split(".").skip(1)`, then the
      package lookup and the child walk).  A name with no `.` leaves nothing
      to look up and aborts. */
  function Resolve(tree: Tree, typeName: string): (r: Result<Symbol>)
    ensures r.Success? ==> |TypeKeys(typeName)| >= 1 && TypeKeys(typeName)[0] in tree
    ensures r.Success? ==> r.value.package == tree[TypeKeys(typeName)[0]].name
  {
    var keys := TypeKeys(typeName);
    if |keys| == 0 then Failure(EmptyTypeName)
    else if keys[0] !in tree then Failure(UnresolvedType(keys[0]))
    else
      var node := tree[keys[0]];
      var ds :- WalkChildren(node, keys[1..]);
      Success(Symbol(node.name, ds))
  }

  /** In a well-formed tree a resolution succeeds exactly when the package
      and every further piece are present, and the symbol is the second piece
      as package with one `Type` descriptor per remaining piece. */
  lemma ResolveWellFormed(tree: Tree, typeName: string)
    requires TreeWellFormed(tree)
    ensures var keys := TypeKeys(typeName);
            var r := Resolve(tree, typeName);
            && (r.Success? <==> |keys| >= 1 && keys[0] in tree && Lookup(tree[keys[0]], keys[1..]).Some?)
            && (r.Success? ==> r.value == Symbol(keys[0], TypeDescriptors(keys[1..])))
  {
    var keys := TypeKeys(typeName);
    if |keys| >= 1 && keys[0] in tree {
      WalkWellFormed(tree[keys[0]], keys[1..]);
    }
  }

  /** A type name without any `.` aborts: nothing follows its first piece. */
  lemma RelativeNameFails(tree: Tree, typeName: string)
    requires '.' !in typeName
    ensures Resolve(tree, typeName) == Failure(EmptyTypeName)
  {
    SplitNoSep(typeName, '.');
  }

  /** The pieces looked up for a joined name are all the pieces but the first. */
  lemma TypeKeysJoin(parts: seq<string>)
    requires |parts| >= 1
    requires forall i :: 0 <= i < |parts| ==> '.' !in parts[i]
    ensures TypeKeys(Join(parts, '.')) == parts[1..]
  {
    SplitJoin(parts, '.');
  }

  /** The pieces of `.p.n1.….nk` hold no `.` when `p` and the names hold none. */
  lemma QualifiedPieces(p: string, names: seq<string>)
    requires '.' !in p
    requires forall t :: 0 <= t < |names| ==> '.' !in names[t]
    ensures var parts := ["", p] + names;
            && |parts| >= 1 && parts[1..] == [p] + names
            && forall i :: 0 <= i < |parts| ==> '.' !in parts[i]
  {
    var parts := ["", p] + names;
    forall i | 0 <= i < |parts| ensures '.' !in parts[i] {
      if i >= 2 { assert parts[i] == names[i - 2]; }
    }
    assert parts[1..] == [p] + names;
  }

  /** The fully qualified name `.p.n1.….nk`, with each piece free of `.`,
      is looked up as package `p` and then the children `n1`, …, `nk`. */
  lemma QualifiedKeys(p: string, names: seq<string>)
    requires '.' !in p
    requires forall t :: 0 <= t < |names| ==> '.' !in names[t]
    ensures TypeKeys(Join(["", p] + names, '.')) == [p] + names
  {
    QualifiedPieces(p, names);
    TypeKeysJoin(["", p] + names);
  }
}

=== FILE: results.dfy ===
/** Outcomes of the converter's steps.

    The converter has no recoverable errors: a missing name, package or type
    name, an index past the end of a collection, or a type name the tree does
    not hold ends the whole run.  The model makes each of those ends a value,
    `Failure(kind)`, so that a contract can say which inputs end the run and
    which are only skipped.
 */
module Results {

  datatype Option<+T> = None | Some(value: T)

  /** The ways the conversion can abort. */
  datatype Error =
    | MissingPackage          // a file without a `package` reaches the type tree builder
    | MissingName             // a message, enum, field or enum value without a `name`
    | MissingTypeName         // a field's type reference (field 6) without a `type_name`
    | MissingFileName         // a file without a `name` when its document is assembled
    | IndexOutOfRange         // a path index outside the collection it selects into
    | EmptyTypeName           // a type name with nothing after its first `.`-separated piece
    | UnresolvedType(key: string) // a package or nested name absent from the type tree
    | PackageAsType           // a package node where a message or enum node was expected

  /** A step's outcome.  `IsFailure`, `PropagateFailure` and `Extract` let
      `:-` end a step at the first abort, as the converter's panics do. */
  datatype Result<+T> = Success(value: T) | Failure(error: Error) {

    predicate IsFailure() {
      Failure?
    }

    function PropagateFailure<U>(): Result<U>
      requires Failure?
    {
      Failure(error)
    }

    function Extract(): T
      requires Success?
    {
      value
    }
  }
}

=== FILE: scenario.dfy ===
/** A worked example: one file, package `demo`, holding

      message User { Role id = 1; }
      enum Role { ADMIN = 0; }

    with six source locations: the message's index path (skipped), the
    message's name, the field's name, the field's type reference, the enum's
    name and the enum value's name.
 */
module Scenario {
  import opened Results
  import opened Schema
  import opened Scip
  import opened PathDecoder
  import opened DecoderProperties
  import opened TypeTree
  import opened TypeTreeProperties
  import opened Resolver
  import opened Assembler
  import opened CrossReference

  const User := MessageDecl(Some("User"), [FieldDecl(Some("id"), Some(".demo.Role"))], [], [])
  const Role := EnumDecl(Some("Role"), [EnumValueDecl(Some("ADMIN"))])

  const SkippedLoc := Location([FileMessageType, 0], [0, 0, 2, 1])
  const UserLoc := Location([FileMessageType, 0, MessageName], [0, 8, 12])
  const FieldLoc := Location([FileMessageType, 0, MessageField, 0, FieldName], [1, 7, 11])
  const TypeLoc := Location([FileMessageType, 0, MessageField, 0, FieldTypeName], [1, 2, 6])
  const RoleLoc := Location([FileEnumType, 0, EnumName], [4, 5, 9])
  const AdminLoc := Location([FileEnumType, 0, EnumValue, 0, EnumValueName], [5, 2, 7])

  const Demo := FileDecl(Some("demo.proto"), Some("demo"), [User], [Role],
                         [SkippedLoc, UserLoc, FieldLoc, TypeLoc, RoleLoc, AdminLoc])

  const UserSymbol := Symbol("demo", [Descriptor("User", Type)])
  const RoleSymbol := Symbol("demo", [Descriptor("Role", Type)])

  lemma DemoBuildable()
    ensures AllBuildable([Demo]) && UniqueTopNames([Demo])
  {
    assert [Demo][0] == Demo;
    assert TopNames(Demo) == ["User", "Role"];
  }

  lemma DemoChain()
    ensures ValidChain(Demo.messages, [0]) && MessagePath([0]) == [FileMessageType, 0]
    ensures ChainNames(Demo.messages, [0]) == ["User"]
    ensures TypeDescriptors(["User"]) == [Descriptor("User", Type)]
  {
  }

  lemma QualifiedRole()
    ensures QualifiedName("demo", ["Role"]) == ".demo.Role"
  {
    var parts := ["", "demo"] + ["Role"];
    assert parts[1..] == ["demo", "Role"] && parts[1..][1..] == ["Role"];
    assert Join(["Role"], '.') == "Role";
    assert Join(["demo", "Role"], '.') == "demo" + "." + "Role";
    assert Join(parts, '.') == "" + "." + ("demo" + "." + "Role");
  }

  /** The message's index path yields nothing. */
  lemma DemoSkipped(tree: Tree)
    ensures ClassifyLocation(tree, Demo, SkippedLoc) == Success(None)
  {
    DemoChain();
    MessageIndexPathSkips(Demo, [0]);
  }

  /** The message's name path defines `User`. */
  lemma DemoUser(tree: Tree)
    ensures ClassifyLocation(tree, Demo, UserLoc) == Success(Some(Occurrence(UserSymbol, DefinitionRole, UserLoc.span)))
  {
    DemoChain();
    MessageNamePath(Demo, [0]);
    assert MessagePath([0]) + [MessageName] == UserLoc.path;
  }

  /** The field's name path defines the field as a `Term` under `User`. */
  lemma DemoField(tree: Tree)
    ensures ClassifyLocation(tree, Demo, FieldLoc)
            == Success(Some(Occurrence(Symbol("demo", [Descriptor("User", Type), Descriptor("id", Term)]),
                                       DefinitionRole, FieldLoc.span)))
  {
    DemoChain();
    FieldNamePath(Demo, [0], 0);
    assert Innermost(Demo.messages, [0]) == User;
    assert MessagePath([0]) + [MessageField, 0, FieldName] == FieldLoc.path;
    assert [Descriptor("User", Type)] + [Descriptor("id", Term)] == [Descriptor("User", Type), Descriptor("id", Term)];
  }

  /** The field's type reference resolves to the enum's definition symbol. */
  lemma DemoReference()
    ensures ClassifyLocation(Populate([Demo]), Demo, TypeLoc)
            == Success(Some(Occurrence(RoleSymbol, ReferenceRole, TypeLoc.span)))
  {
    DemoChain();
    DemoBuildable();
    FieldTypePath(Demo, [0], 0, []);
    assert MessagePath([0]) + [MessageField, 0, FieldTypeName] + [] == TypeLoc.path;
    TopEnumReferenceResolves([Demo], 0, 0);
    assert [Demo][0] == Demo;
    QualifiedRole();
    assert TypeDescriptors(["Role"]) == [Descriptor("Role", Type)];
  }

  /** The enum's name path defines `Role`. */
  lemma DemoRole(tree: Tree)
    ensures ClassifyLocation(tree, Demo, RoleLoc) == Success(Some(Occurrence(RoleSymbol, DefinitionRole, RoleLoc.span)))
  {
    TopEnumNamePath(Demo, 0);
  }

  /** The enum value's name path defines `ADMIN` with no segment for its enum. */
  lemma DemoAdmin(tree: Tree)
    ensures ClassifyLocation(tree, Demo, AdminLoc)
            == Success(Some(Occurrence(Symbol("demo", [Descriptor("ADMIN", Term)]), DefinitionRole, AdminLoc.span)))
  {
    TopEnumValueNamePath(Demo, 0, 0);
  }

  const UserOcc := Occurrence(UserSymbol, DefinitionRole, UserLoc.span)
  const FieldOcc := Occurrence(Symbol("demo", [Descriptor("User", Type), Descriptor("id", Term)]), DefinitionRole, FieldLoc.span)
  const TypeOcc := Occurrence(RoleSymbol, ReferenceRole, TypeLoc.span)
  const RoleOcc := Occurrence(RoleSymbol, DefinitionRole, RoleLoc.span)
  const AdminOcc := Occurrence(Symbol("demo", [Descriptor("ADMIN", Term)]), DefinitionRole, AdminLoc.span)

  /** One more location that classifies to nothing, a definition or a reference. */
  lemma ScanOneMore(tree: Tree, f: FileDecl, locs: seq<Location>, k: int, prev: Contribution)
    requires 0 < k <= |locs|
    requires ScanLocations(tree, f, locs[..k - 1]) == Success(prev)
    requires ClassifyLocation(tree, f, locs[k - 1]).Success?
    ensures var occ := ClassifyLocation(tree, f, locs[k - 1]).value;
            && (occ.None? ==> ScanLocations(tree, f, locs[..k]) == Success(prev))
            && (occ.Some? && occ.value.roles == DefinitionRole ==>
                  ScanLocations(tree, f, locs[..k])
                  == Success(Contribution(prev.symbols + [SymbolInformation(occ.value.symbol)], prev.occurrences + [occ.value])))
            && (occ.Some? && occ.value.roles == ReferenceRole ==>
                  ScanLocations(tree, f, locs[..k]) == Success(Contribution(prev.symbols, prev.occurrences + [occ.value])))
  {
    assert locs[..k][..k - 1] == locs[..k - 1];
    assert locs[..k][k - 1] == locs[k - 1];
  }

  /** The first three locations, whatever the tree: the skipped index path
      and the two definitions of the message and its field. */
  lemma DemoScanHead(tree: Tree)
    ensures ScanLocations(tree, Demo, Demo.locations[..3])
            == Success(Contribution([SymbolInformation(UserOcc.symbol), SymbolInformation(FieldOcc.symbol)],
                                    [UserOcc, FieldOcc]))
  {
    var locs := Demo.locations;
    var u := SymbolInformation(UserOcc.symbol);
    var fs := SymbolInformation(FieldOcc.symbol);
    assert locs[..0] == [];
    DemoSkipped(tree);
    ScanOneMore(tree, Demo, locs, 1, Contribution([], []));
    DemoUser(tree);
    ScanOneMore(tree, Demo, locs, 2, Contribution([], []));
    assert [] + [u] == [u] && [] + [UserOcc] == [UserOcc];
    DemoField(tree);
    ScanOneMore(tree, Demo, locs, 3, Contribution([u], [UserOcc]));
    assert [u] + [fs] == [u, fs] && [UserOcc] + [FieldOcc] == [UserOcc, FieldOcc];
  }

  /** The first four locations, adding the field's type reference. */
  lemma DemoScanReference()
    ensures ScanLocations(Populate([Demo]), Demo, Demo.locations[..4])
            == Success(Contribution([SymbolInformation(UserOcc.symbol), SymbolInformation(FieldOcc.symbol)],
                                    [UserOcc, FieldOcc, TypeOcc]))
  {
    var tree := Populate([Demo]);
    DemoScanHead(tree);
    DemoReference();
    ScanOneMore(tree, Demo, Demo.locations, 4,
                Contribution([SymbolInformation(UserOcc.symbol), SymbolInformation(FieldOcc.symbol)], [UserOcc, FieldOcc]));
    assert [UserOcc, FieldOcc] + [TypeOcc] == [UserOcc, FieldOcc, TypeOcc];
  }

  /** The file's locations in order: five occurrences, four of them
      definitions and so also symbols. */
  lemma DemoScan()
    ensures ScanLocations(Populate([Demo]), Demo, Demo.locations)
            == Success(Contribution(
                 [SymbolInformation(UserOcc.symbol), SymbolInformation(FieldOcc.symbol),
                  SymbolInformation(RoleOcc.symbol), SymbolInformation(AdminOcc.symbol)],
                 [UserOcc, FieldOcc, TypeOcc, RoleOcc, AdminOcc]))
  {
    var tree := Populate([Demo]);
    var locs := Demo.locations;
    var u := SymbolInformation(UserOcc.symbol);
    var fs := SymbolInformation(FieldOcc.symbol);
    var r := SymbolInformation(RoleOcc.symbol);
    var ad := SymbolInformation(AdminOcc.symbol);
    DemoScanReference();
    DemoRole(tree);
    ScanOneMore(tree, Demo, locs, 5, Contribution([u, fs], [UserOcc, FieldOcc, TypeOcc]));
    assert [u, fs] + [r] == [u, fs, r];
    assert [UserOcc, FieldOcc, TypeOcc] + [RoleOcc] == [UserOcc, FieldOcc, TypeOcc, RoleOcc];
    DemoAdmin(tree);
    ScanOneMore(tree, Demo, locs, 6, Contribution([u, fs, r], [UserOcc, FieldOcc, TypeOcc, RoleOcc]));
    assert locs[..6] == locs;
    assert [u, fs, r] + [ad] == [u, fs, r, ad];
    assert [UserOcc, FieldOcc, TypeOcc, RoleOcc] + [AdminOcc] == [UserOcc, FieldOcc, TypeOcc, RoleOcc, AdminOcc];
  }

  /** The whole conversion of the one-file input: one document for
      `demo.proto` holding those symbols and occurrences, and the field's
      reference shares its symbol with the enum's definition. */
  lemma DemoIndex()
    ensures Index([Demo]) == Success([Document("demo.proto", Language,
              [SymbolInformation(UserOcc.symbol), SymbolInformation(FieldOcc.symbol),
               SymbolInformation(RoleOcc.symbol), SymbolInformation(AdminOcc.symbol)],
              [UserOcc, FieldOcc, TypeOcc, RoleOcc, AdminOcc])])
    ensures TypeOcc.symbol == RoleOcc.symbol && TypeOcc.roles != RoleOcc.roles
  {
    DemoBuildable();
    DemoScan();
    var tree := Populate([Demo]);
    assert BuildTree([Demo]) == Success(tree);
    assert [Demo][1..] == [];
    var d := DocumentOf(tree, Demo).value;
    assert Documents(tree, [Demo]) == Success([d] + []);
    assert [d] + [] == [d];
  }
}

=== FILE: schema.dfy ===
/** The part of `descriptor.proto` that the converter reads: files, messages,
    fields, enums and enum values, each with its optional `name`, and the
    source-location entries of a file.  Every optional string of the protobuf
    schema is an `Option`, because the converter unwraps them and aborts when
    they are absent.
 */
module Schema {
  import opened Results

  datatype FieldDecl = FieldDecl(name: Option<string>, typeName: Option<string>)

  datatype EnumValueDecl = EnumValueDecl(name: Option<string>)

  datatype EnumDecl = EnumDecl(name: Option<string>, values: seq<EnumValueDecl>)

  /** `nested` is `nested_type` and `enums` is `enum_type` of `DescriptorProto`. */
  datatype MessageDecl = MessageDecl(
    name: Option<string>,
    fields: seq<FieldDecl>,
    nested: seq<MessageDecl>,
    enums: seq<EnumDecl>)

  /** One `SourceCodeInfo.Location`: the path addressing a declaration and its span. */
  datatype Location = Location(path: seq<int>, span: seq<int>)

  /** A `FileDescriptorProto`: `messages` is `message_type`, `enums` is `enum_type`. */
  datatype FileDecl = FileDecl(
    name: Option<string>,
    package: Option<string>,
    messages: seq<MessageDecl>,
    enums: seq<EnumDecl>,
    locations: seq<Location>)

  // Field numbers of descriptor.proto that a source-location path walks through.
  const FileMessageType := 4
  const FileEnumType := 5
  const MessageName := 1
  const MessageField := 2
  const MessageNestedType := 3
  const MessageEnumType := 4
  const FieldName := 1
  const FieldTypeName := 6
  const EnumName := 1
  const EnumValue := 2
  const EnumValueName := 1

  /** A message and every message and enum nested in it carry a name
      (enum values and fields are not required: the type tree never reads them). */
  predicate MessageNamed(m: MessageDecl) {
    && m.name.Some?
    && (forall i :: 0 <= i < |m.nested| ==> MessageNamed(m.nested[i]))
    && (forall i :: 0 <= i < |m.enums| ==> m.enums[i].name.Some?)
  }

  predicate MessagesNamed(msgs: seq<MessageDecl>) {
    forall i :: 0 <= i < |msgs| ==> MessageNamed(msgs[i])
  }

  predicate EnumsNamed(enums: seq<EnumDecl>) {
    forall i :: 0 <= i < |enums| ==> enums[i].name.Some?
  }

  /** Every message and enum of the file, at any depth, carries a name. */
  predicate FileNamed(f: FileDecl) {
    MessagesNamed(f.messages) && EnumsNamed(f.enums)
  }

  function MessageNames(msgs: seq<MessageDecl>): (names: seq<string>)
    requires MessagesNamed(msgs)
    ensures |names| == |msgs|
    ensures forall i :: 0 <= i < |msgs| ==> names[i] == msgs[i].name.value
  {
    if |msgs| == 0 then [] else [msgs[0].name.value] + MessageNames(msgs[1..])
  }

  function EnumNames(enums: seq<EnumDecl>): (names: seq<string>)
    requires EnumsNamed(enums)
    ensures |names| == |enums|
    ensures forall i :: 0 <= i < |enums| ==> names[i] == enums[i].name.value
  {
    if |enums| == 0 then [] else [enums[0].name.value] + EnumNames(enums[1..])
  }

  predicate Distinct(s: seq<string>) {
    forall a, b :: 0 <= a < b < |s| ==> s[a] != s[b]
  }

  /** The names a message gives its nested messages and enums are pairwise
      distinct, at every depth (the schema compiler rejects anything else). */
  predicate DeepUnique(m: MessageDecl)
    requires MessageNamed(m)
  {
    && Distinct(MessageNames(m.nested) + EnumNames(m.enums))
    && (forall i :: 0 <= i < |m.nested| ==> DeepUnique(m.nested[i]))
  }
}

=== FILE: scip.dfy ===
/** The SCIP values the converter produces, reduced to the parts it sets:
    descriptor name and suffix, the symbol's package name, occurrence roles
    and spans, and per-file documents.  `format_symbol` is not modelled: a
    symbol is kept as the structured pair it is formatted from.
 */
module Scip {

  /** `Namespace` exists in SCIP but the converter never produces it. */
  datatype Suffix = Namespace | Type | Term

  datatype Descriptor = Descriptor(name: string, suffix: Suffix)

  /** Scheme, manager and version are the fixed string "." in every symbol
      the converter builds, so only the package name is kept. */
  datatype Symbol = Symbol(package: string, descriptors: seq<Descriptor>)

  datatype SymbolInformation = SymbolInformation(symbol: Symbol)

  datatype Occurrence = Occurrence(symbol: Symbol, roles: int, span: seq<int>)

  datatype Document = Document(
    relativePath: string,
    language: string,
    symbols: seq<SymbolInformation>,
    occurrences: seq<Occurrence>)

  /** `SymbolRole::Definition`; a reference carries no role bit at all. */
  const DefinitionRole := 1
  const ReferenceRole := 0

  const Language := "ProtocolBuffers"

  /** One `Type` descriptor per name, in order. */
  function TypeDescriptors(names: seq<string>): (ds: seq<Descriptor>)
    ensures |ds| == |names|
    ensures forall t :: 0 <= t < |names| ==> ds[t] == Descriptor(names[t], Type)
  {
    if |names| == 0 then [] else [Descriptor(names[0], Type)] + TypeDescriptors(names[1..])
  }
}

=== FILE: type_tree.dfy ===
/** The type tree (`populate_type_tree`, `populate_type_tree_internal`):
    a map from package name to a package node, whose children are the
    package's top-level messages and enums, whose children in turn are their
    nested messages and enums.  Every file with a given package adds to the
    one node of that package.  A child is inserted under its name, so a later
    declaration with the same name under the same parent replaces the earlier
    one, together with everything nested in it.
 */
module TypeTree {
  import opened Results
  import opened Schema

  /** `TypeTreeData`: a package, or the declaration a node was built from. */
  datatype NodeKind = PackageKind | MessageKind(message: MessageDecl) | EnumKind(en: EnumDecl)

  /** `TypeTreeValue`. */
  datatype TypeNode = TypeNode(name: string, kind: NodeKind, children: map<string, TypeNode>)

  /** The registry: package name to package node. */
  type Tree = map<string, TypeNode>

  /** The names of `nodes`, in order. */
  function NodeNames(nodes: seq<TypeNode>): (names: seq<string>)
    ensures |names| == |nodes|
    ensures forall i :: 0 <= i < |nodes| ==> names[i] == nodes[i].name
  {
    if |nodes| == 0 then [] else [nodes[0].name] + NodeNames(nodes[1..])
  }

  /** Inserts `nodes` one after the other, each under its own name. */
  function InsertNodes(children: map<string, TypeNode>, nodes: seq<TypeNode>): (r: map<string, TypeNode>)
    decreases |nodes|
  {
    if |nodes| == 0 then children
    else InsertNodes(children[nodes[0].name := nodes[0]], nodes[1..])
  }

  /** The node of a message, holding its nested messages and then its nested
      enums (`populate_type_tree_internal` on a message). */
  function MessageNode(m: MessageDecl): TypeNode
    requires MessageNamed(m)
    decreases m, 1
  {
    TypeNode(m.name.value, MessageKind(m),
             InsertNodes(InsertNodes(map[], MessageNodes(m.nested)), EnumNodes(m.enums)))
  }

  function MessageNodes(msgs: seq<MessageDecl>): (nodes: seq<TypeNode>)
    requires MessagesNamed(msgs)
    ensures |nodes| == |msgs|
    decreases msgs, 0
  {
    if |msgs| == 0 then [] else [MessageNode(msgs[0])] + MessageNodes(msgs[1..])
  }

  /** The node of an enum: enums have no children. */
  function EnumNode(e: EnumDecl): TypeNode
    requires e.name.Some?
  {
    TypeNode(e.name.value, EnumKind(e), map[])
  }

  function EnumNodes(enums: seq<EnumDecl>): (nodes: seq<TypeNode>)
    requires EnumsNamed(enums)
    ensures |nodes| == |enums|
    ensures forall i :: 0 <= i < |enums| ==> nodes[i] == EnumNode(enums[i])
  {
    if |enums| == 0 then [] else [EnumNode(enums[0])] + EnumNodes(enums[1..])
  }

  /** The nodes a file adds under its package, in insertion order: its
      messages, then its enums. */
  function TopNodes(f: FileDecl): seq<TypeNode>
    requires FileNamed(f)
  {
    MessageNodes(f.messages) + EnumNodes(f.enums)
  }

  /** The names of a file's top-level declarations, messages first. */
  function TopNames(f: FileDecl): seq<string>
    requires FileNamed(f)
  {
    MessageNames(f.messages) + EnumNames(f.enums)
  }

  /** A file the builder accepts: it has a package and every message and enum is named. */
  predicate Buildable(f: FileDecl) {
    f.package.Some? && FileNamed(f)
  }

  predicate AllBuildable(files: seq<FileDecl>) {
    forall i :: 0 <= i < |files| ==> Buildable(files[i])
  }

  /** `populate_type_tree` for one file: creates the package node on first
      sight, then inserts the file's top-level declarations into it. */
  function AddFile(tree: Tree, f: FileDecl): (r: Tree)
    requires Buildable(f)
    ensures r.Keys == tree.Keys + {f.package.value}
    ensures forall p :: p in tree && p != f.package.value ==> r[p] == tree[p]
    ensures f.package.value in tree ==>
              r[f.package.value].name == tree[f.package.value].name
              && r[f.package.value].kind == tree[f.package.value].kind
  {
    var p := f.package.value;
    var node := if p in tree then tree[p] else TypeNode(p, PackageKind, map[]);
    tree[p := node.(children := InsertNodes(node.children, TopNodes(f)))]
  }

  /** Adds every file, in input order. */
  function Populate(files: seq<FileDecl>): (tree: Tree)
    requires AllBuildable(files)
    decreases |files|
  {
    if |files| == 0 then map[]
    else AddFile(Populate(files[..|files| - 1]), files[|files| - 1])
  }

  /** The first abort the builder meets, in file order: a file without a
      package, or a message or enum without a name. */
  function BuildError(files: seq<FileDecl>): (e: Option<Error>)
    ensures e.None? <==> AllBuildable(files)
    ensures e.Some? ==> e.value == MissingPackage || e.value == MissingName
  {
    if |files| == 0 then None
    else if files[0].package.None? then Some(MissingPackage)
    else if !FileNamed(files[0]) then Some(MissingName)
    else BuildError(files[1..])
  }

  /** The type tree of all files, or the abort that stops its construction. */
  function BuildTree(files: seq<FileDecl>): (r: Result<Tree>)
    ensures r.Success? <==> AllBuildable(files)
  {
    match BuildError(files)
    case Some(e) => Failure(e)
    case None => Success(Populate(files))
  }

  // ----- Shape of a built tree ----------------------------------------------

  /** A node's children are keyed by their own names, are messages or enums
      (never packages), and enums have no children, all the way down. */
  predicate WellFormed(n: TypeNode)
    decreases n, 0
  {
    forall k :: k in n.children ==> n.children[k].name == k && ChildOk(n.children[k])
  }

  predicate ChildOk(c: TypeNode)
    decreases c, 1
  {
    && !c.kind.PackageKind?
    && (c.kind.EnumKind? ==> c.children == map[])
    && WellFormed(c)
  }

  /** Every key names a package node of that name, well formed below. */
  predicate TreeWellFormed(tree: Tree) {
    forall p :: p in tree ==> tree[p].name == p && tree[p].kind == PackageKind && WellFormed(tree[p])
  }

}

=== FILE: type_tree_properties.dfy ===
/** What the type tree holds once every file is added: one node per
    package, the children of a package are the top-level declarations of all
    its files, the last insertion of a name wins, and, when names are unique
    as the schema compiler guarantees, every message and enum is found under
    its package by its chain of names.
 */
module TypeTreeProperties {
  import opened Results
  import opened Schema
  import opened TypeTree

  /** Top-level names are unique within each package: inside one file, and
      between any two files declaring the same package. */
  predicate UniqueTopNames(files: seq<FileDecl>)
    requires AllBuildable(files)
  {
    && (forall i :: 0 <= i < |files| ==> Distinct(TopNames(files[i])))
    && (forall i, j, k ::
          0 <= i < j < |files| && files[i].package == files[j].package && k in TopNames(files[i])
          ==> k !in TopNames(files[j]))
  }

  // ----- Names of built nodes -----------------------------------------------

  /** Element `i` of the message nodes is the node of message `i`. */
  lemma {:induction false} MessageNodesAt(msgs: seq<MessageDecl>, i: int)
    requires MessagesNamed(msgs) && 0 <= i < |msgs|
    ensures MessageNodes(msgs)[i] == MessageNode(msgs[i])
    decreases |msgs|
  {
    if i > 0 {
      MessageNodesAt(msgs[1..], i - 1);
    }
  }

  lemma MessageNodeNames(msgs: seq<MessageDecl>)
    requires MessagesNamed(msgs)
    ensures NodeNames(MessageNodes(msgs)) == MessageNames(msgs)
  {
    forall i | 0 <= i < |msgs| ensures NodeNames(MessageNodes(msgs))[i] == MessageNames(msgs)[i] {
      MessageNodesAt(msgs, i);
    }
  }

  lemma EnumNodeNames(enums: seq<EnumDecl>)
    requires EnumsNamed(enums)
    ensures NodeNames(EnumNodes(enums)) == EnumNames(enums)
  {
  }

  lemma NodeNamesAppend(a: seq<TypeNode>, b: seq<TypeNode>)
    ensures NodeNames(a + b) == NodeNames(a) + NodeNames(b)
  {
    var l, r := NodeNames(a + b), NodeNames(a) + NodeNames(b);
    assert |l| == |r|;
    forall i | 0 <= i < |l| ensures l[i] == r[i] {
      if i < |a| { assert (a + b)[i] == a[i]; } else { assert (a + b)[i] == b[i - |a|]; }
    }
  }

  /** The nodes a file inserts are named by its top-level names, in order. */
  lemma TopNodeNames(f: FileDecl)
    requires FileNamed(f)
    ensures NodeNames(TopNodes(f)) == TopNames(f)
  {
    MessageNodeNames(f.messages);
    EnumNodeNames(f.enums);
    NodeNamesAppend(MessageNodes(f.messages), EnumNodes(f.enums));
  }

  // ----- Insertion ----------------------------------------------------------

  /** Inserting adds exactly the inserted names to the keys, and leaves the
      entry of every other name as it was. */
  lemma {:induction false} InsertNodesKeys(children: map<string, TypeNode>, nodes: seq<TypeNode>, k: string)
    ensures k in InsertNodes(children, nodes) <==> k in children || k in NodeNames(nodes)
    ensures k in children && k !in NodeNames(nodes) ==> InsertNodes(children, nodes)[k] == children[k]
    decreases |nodes|
  {
    if |nodes| > 0 {
      InsertNodesKeys(children[nodes[0].name := nodes[0]], nodes[1..], k);
      assert NodeNames(nodes) == [nodes[0].name] + NodeNames(nodes[1..]);
    }
  }

  /** A node inserted under a name that no later node reuses is the one found
      under that name: the last insertion of a name wins. */
  lemma {:induction false} InsertNodesLastWins(children: map<string, TypeNode>, nodes: seq<TypeNode>, i: int)
    requires 0 <= i < |nodes|
    requires forall j :: i < j < |nodes| ==> nodes[j].name != nodes[i].name
    ensures nodes[i].name in InsertNodes(children, nodes)
    ensures InsertNodes(children, nodes)[nodes[i].name] == nodes[i]
    decreases |nodes|
  {
    var next := children[nodes[0].name := nodes[0]];
    if i == 0 {
      assert nodes[0].name !in NodeNames(nodes[1..]);
      InsertNodesKeys(next, nodes[1..], nodes[0].name);
    } else {
      InsertNodesLastWins(next, nodes[1..], i - 1);
    }
  }

  /** The children of a message node are keyed by exactly the names of its
      nested messages and enums. */
  lemma MessageNodeChildKeys(m: MessageDecl, k: string)
    requires MessageNamed(m)
    ensures k in MessageNode(m).children <==> k in MessageNames(m.nested) || k in EnumNames(m.enums)
  {
    MessageNodeNames(m.nested);
    EnumNodeNames(m.enums);
    var inner := InsertNodes(map[], MessageNodes(m.nested));
    InsertNodesKeys(map[], MessageNodes(m.nested), k);
    InsertNodesKeys(inner, EnumNodes(m.enums), k);
  }

  /** With unique child names, nested message `j` of a message is found
      under its name among the message node's children. */
  lemma NestedMessageChild(m: MessageDecl, j: int)
    requires MessageNamed(m) && Distinct(MessageNames(m.nested) + EnumNames(m.enums))
    requires 0 <= j < |m.nested|
    ensures m.nested[j].name.value in MessageNode(m).children
    ensures MessageNode(m).children[m.nested[j].name.value] == MessageNode(m.nested[j])
  {
    var names := MessageNames(m.nested) + EnumNames(m.enums);
    var msgNodes := MessageNodes(m.nested);
    MessageNodeNames(m.nested);
    EnumNodeNames(m.enums);
    forall l | j < l < |msgNodes| ensures msgNodes[l].name != msgNodes[j].name {
      assert names[l] != names[j];
    }
    InsertNodesLastWins(map[], msgNodes, j);
    MessageNodesAt(m.nested, j);
    var n := m.nested[j].name.value;
    assert n !in EnumNames(m.enums) by {
      forall e | 0 <= e < |m.enums| ensures EnumNames(m.enums)[e] != n {
        assert names[|m.nested| + e] != names[j];
      }
    }
    InsertNodesKeys(InsertNodes(map[], msgNodes), EnumNodes(m.enums), n);
  }

  lemma DistinctRight(a: seq<string>, b: seq<string>)
    requires Distinct(a + b)
    ensures Distinct(b)
  {
    forall x, y | 0 <= x < y < |b| ensures b[x] != b[y] {
      assert (a + b)[|a| + x] == b[x] && (a + b)[|a| + y] == b[y];
    }
  }

  lemma LaterEnumNamesDiffer(m: MessageDecl, e: int)
    requires MessageNamed(m) && Distinct(MessageNames(m.nested) + EnumNames(m.enums))
    requires 0 <= e < |m.enums|
    ensures forall l :: e < l < |m.enums| ==> EnumNodes(m.enums)[l].name != EnumNodes(m.enums)[e].name
  {
    var names := EnumNames(m.enums);
    DistinctRight(MessageNames(m.nested), names);
    forall l | e < l < |m.enums| ensures m.enums[l].name.value != m.enums[e].name.value {
      assert names[l] != names[e];
    }
  }

  /** With unique child names, nested enum `e` of a message is found under its
      name among the message node's children, as a node without children. */
  lemma NestedEnumChild(m: MessageDecl, e: int)
    requires MessageNamed(m) && Distinct(MessageNames(m.nested) + EnumNames(m.enums))
    requires 0 <= e < |m.enums|
    ensures m.enums[e].name.value in MessageNode(m).children
    ensures MessageNode(m).children[m.enums[e].name.value] == EnumNode(m.enums[e])
  {
    var enumNodes := EnumNodes(m.enums);
    LaterEnumNamesDiffer(m, e);
    var inner := InsertNodes(map[], MessageNodes(m.nested));
    InsertNodesLastWins(inner, enumNodes, e);
    assert MessageNode(m).children == InsertNodes(inner, enumNodes);
  }

  // ----- Well-formedness ----------------------------------------------------

  /** Inserting well-formed nodes into a well-formed node keeps it well formed. */
  lemma {:induction false} InsertNodesOk(n: TypeNode, nodes: seq<TypeNode>)
    requires WellFormed(n)
    requires forall i :: 0 <= i < |nodes| ==> ChildOk(nodes[i])
    ensures WellFormed(n.(children := InsertNodes(n.children, nodes)))
    decreases |nodes|
  {
    if |nodes| > 0 {
      InsertNodesOk(n.(children := n.children[nodes[0].name := nodes[0]]), nodes[1..]);
    }
  }

  /** A message node, and everything below it, is well formed. */
  lemma {:induction false} MessageNodeOk(m: MessageDecl)
    requires MessageNamed(m)
    ensures ChildOk(MessageNode(m))
    decreases m, 1
  {
    MessageNodesOk(m.nested);
    EnumNodesOk(m.enums);
    var bare := TypeNode(m.name.value, MessageKind(m), map[]);
    InsertNodesOk(bare, MessageNodes(m.nested));
    InsertNodesOk(bare.(children := InsertNodes(map[], MessageNodes(m.nested))), EnumNodes(m.enums));
  }

  lemma {:induction false} MessageNodesOk(msgs: seq<MessageDecl>)
    requires MessagesNamed(msgs)
    ensures forall i :: 0 <= i < |msgs| ==> ChildOk(MessageNodes(msgs)[i])
    decreases msgs, 0
  {
    forall i | 0 <= i < |msgs| ensures ChildOk(MessageNodes(msgs)[i]) {
      MessageNodesAt(msgs, i);
      MessageNodeOk(msgs[i]);
    }
  }

  lemma EnumNodesOk(enums: seq<EnumDecl>)
    requires EnumsNamed(enums)
    ensures forall i :: 0 <= i < |enums| ==> ChildOk(EnumNodes(enums)[i])
  {
  }

  /** Every node a file inserts is well formed. */
  lemma TopNodesOk(f: FileDecl)
    requires FileNamed(f)
    ensures forall i :: 0 <= i < |TopNodes(f)| ==> ChildOk(TopNodes(f)[i])
  {
    MessageNodesOk(f.messages);
    EnumNodesOk(f.enums);
    var a, b := MessageNodes(f.messages), EnumNodes(f.enums);
    forall i | 0 <= i < |a + b| ensures ChildOk((a + b)[i]) {
      if i < |a| { assert (a + b)[i] == a[i]; } else { assert (a + b)[i] == b[i - |a|]; }
    }
  }

  /** The built tree maps each package to a package node of that name, and
      every node below is keyed by its name, never a package, and enums have
      no children. */
  lemma {:induction false} PopulateWellFormed(files: seq<FileDecl>)
    requires AllBuildable(files)
    ensures TreeWellFormed(Populate(files))
    decreases |files|
  {
    if |files| > 0 {
      var prefix := files[..|files| - 1];
      var f := files[|files| - 1];
      assert AllBuildable(prefix) by {
        forall i | 0 <= i < |prefix| ensures Buildable(prefix[i]) { assert prefix[i] == files[i]; }
      }
      PopulateWellFormed(prefix);
      var prev := Populate(prefix);
      var p := f.package.value;
      var node := if p in prev then prev[p] else TypeNode(p, PackageKind, map[]);
      assert WellFormed(node);
      TopNodesOk(f);
      InsertNodesOk(node, TopNodes(f));
    }
  }

  // ----- Packages -----------------------------------------------------------

  lemma PrefixBuildable(files: seq<FileDecl>)
    requires AllBuildable(files) && |files| > 0
    ensures AllBuildable(files[..|files| - 1])
  {
    var prefix := files[..|files| - 1];
    forall i | 0 <= i < |prefix| ensures Buildable(prefix[i]) { assert prefix[i] == files[i]; }
  }

  /** The tree has a key for exactly the packages the files declare, each
      holding a package node of that name. */
  lemma {:induction false} PopulatePackage(files: seq<FileDecl>, p: string)
    requires AllBuildable(files)
    ensures p in Populate(files) <==> exists i :: 0 <= i < |files| && files[i].package == Some(p)
    ensures p in Populate(files) ==> Populate(files)[p].name == p && Populate(files)[p].kind == PackageKind
    decreases |files|
  {
    if |files| > 0 {
      var prefix := files[..|files| - 1];
      PrefixBuildable(files);
      PopulatePackage(prefix, p);
      if exists i :: 0 <= i < |prefix| && prefix[i].package == Some(p) {
        var i :| 0 <= i < |prefix| && prefix[i].package == Some(p);
        assert files[i] == prefix[i];
      }
      if exists i :: 0 <= i < |files| && files[i].package == Some(p) {
        var i :| 0 <= i < |files| && files[i].package == Some(p);
        if i < |prefix| { assert prefix[i] == files[i]; }
      }
    }
  }

  /** Whether file `f` is in package `p` and declares top-level name `k`. */
  predicate DeclaredIn(f: FileDecl, p: string, k: string) {
    f.package == Some(p) && FileNamed(f) && k in TopNames(f)
  }

  /** Whether some file declares package `p` with top-level name `k`. */
  predicate Declares(files: seq<FileDecl>, p: string, k: string) {
    exists i :: 0 <= i < |files| && DeclaredIn(files[i], p, k)
  }

  lemma DeclaresSplit(files: seq<FileDecl>, p: string, k: string)
    requires |files| > 0
    ensures Declares(files, p, k) <==>
              Declares(files[..|files| - 1], p, k) || DeclaredIn(files[|files| - 1], p, k)
  {
    var prefix := files[..|files| - 1];
    var last := |files| - 1;
    assert forall i :: 0 <= i < last ==> prefix[i] == files[i];
  }

  /** The children of a package node are exactly the top-level names of all
      files declaring that package: files of one package share one node. */
  lemma {:induction false} PopulatePackageChildren(files: seq<FileDecl>, p: string, k: string)
    requires AllBuildable(files) && p in Populate(files)
    ensures k in Populate(files)[p].children <==> Declares(files, p, k)
    decreases |files|
  {
    var prefix := files[..|files| - 1];
    var f := files[|files| - 1];
    PrefixBuildable(files);
    DeclaresSplit(files, p, k);
    var prev := Populate(prefix);
    PopulatePackage(prefix, p);
    if f.package.value != p {
      assert Populate(files)[p] == prev[p];
      PopulatePackageChildren(prefix, p, k);
    } else {
      var node := if p in prev then prev[p] else TypeNode(p, PackageKind, map[]);
      assert Populate(files)[p].children == InsertNodes(node.children, TopNodes(f));
      TopNodeNames(f);
      InsertNodesKeys(node.children, TopNodes(f), k);
      if p in prev {
        PopulatePackageChildren(prefix, p, k);
      } else {
        assert !Declares(prefix, p, k);
      }
    }
  }

  // ----- Reachability -------------------------------------------------------

  lemma PrefixUnique(files: seq<FileDecl>)
    requires AllBuildable(files) && UniqueTopNames(files) && |files| > 0
    ensures AllBuildable(files[..|files| - 1]) && UniqueTopNames(files[..|files| - 1])
  {
    var prefix := files[..|files| - 1];
    PrefixBuildable(files);
    forall i | 0 <= i < |prefix| ensures Distinct(TopNames(prefix[i])) { assert prefix[i] == files[i]; }
    forall i, j, k | 0 <= i < j < |prefix| && prefix[i].package == prefix[j].package && k in TopNames(prefix[i])
      ensures k !in TopNames(prefix[j])
    {
      assert prefix[i] == files[i] && prefix[j] == files[j];
    }
  }

  /** The last declaration of a name in a package wins: the `t`-th
      top-level declaration of file `fi` is found, as the node built from it,
      under its name among the children of its package's node, provided no
      later declaration of the same file, and no later file of the same
      package, declares that name again.  Earlier files and earlier
      declarations of the same name do not matter: they are replaced. */
  lemma {:induction false} PopulateLastWins(files: seq<FileDecl>, fi: int, t: int)
    requires AllBuildable(files)
    requires 0 <= fi < |files| && 0 <= t < |TopNames(files[fi])|
    requires forall j :: t < j < |TopNames(files[fi])| ==> TopNames(files[fi])[j] != TopNames(files[fi])[t]
    requires forall j :: fi < j < |files| && files[j].package == files[fi].package ==>
               TopNames(files[fi])[t] !in TopNames(files[j])
    ensures |TopNodes(files[fi])| == |TopNames(files[fi])|
    ensures var p := files[fi].package.value;
            var k := TopNodes(files[fi])[t].name;
            && p in Populate(files)
            && k in Populate(files)[p].children
            && Populate(files)[p].children[k] == TopNodes(files[fi])[t]
    decreases |files|
  {
    var prefix := files[..|files| - 1];
    var last := files[|files| - 1];
    var p := files[fi].package.value;
    TopNodeNames(files[fi]);
    var k := TopNodes(files[fi])[t].name;
    assert k == TopNames(files[fi])[t];
    PrefixBuildable(files);
    var prev := Populate(prefix);
    if fi == |files| - 1 {
      var node := if p in prev then prev[p] else TypeNode(p, PackageKind, map[]);
      var nodes := TopNodes(last);
      assert Populate(files)[p].children == InsertNodes(node.children, nodes);
      forall j | t < j < |nodes| ensures nodes[j].name != nodes[t].name {
        assert TopNames(last)[j] != TopNames(last)[t];
      }
      InsertNodesLastWins(node.children, nodes, t);
    } else {
      assert prefix[fi] == files[fi];
      forall j | fi < j < |prefix| && prefix[j].package == prefix[fi].package
        ensures TopNames(prefix[fi])[t] !in TopNames(prefix[j])
      {
        assert prefix[j] == files[j];
      }
      PopulateLastWins(prefix, fi, t);
      if last.package.value == p {
        var nodes := TopNodes(last);
        assert Populate(files)[p].children == InsertNodes(prev[p].children, nodes);
        TopNodeNames(last);
        assert k !in TopNames(last);
        InsertNodesKeys(prev[p].children, nodes, k);
      } else {
        assert Populate(files)[p] == prev[p];
      }
    }
  }

  /** With unique top-level names, the `t`-th top-level declaration of any
      file is found, as the node built from it, under its name among the
      children of its package's node, whatever files come before or after. */
  lemma PopulateReachesTop(files: seq<FileDecl>, fi: int, t: int)
    requires AllBuildable(files) && UniqueTopNames(files)
    requires 0 <= fi < |files| && 0 <= t < |TopNodes(files[fi])|
    ensures var p := files[fi].package.value;
            var k := TopNodes(files[fi])[t].name;
            && p in Populate(files)
            && k in Populate(files)[p].children
            && Populate(files)[p].children[k] == TopNodes(files[fi])[t]
  {
    var names := TopNames(files[fi]);
    TopNodeNames(files[fi]);
    assert Distinct(names);
    forall j | t < j < |names| ensures names[j] != names[t] { }
    forall j | fi < j < |files| && files[j].package == files[fi].package
      ensures names[t] !in TopNames(files[j])
    { }
    PopulateLastWins(files, fi, t);
  }

  /** With unique top-level names, top-level message `i` of file `fi` is
      found under its package by its name, as the node built from it. */
  lemma TopMessageReachable(files: seq<FileDecl>, fi: int, i: int)
    requires AllBuildable(files) && UniqueTopNames(files)
    requires 0 <= fi < |files| && 0 <= i < |files[fi].messages|
    ensures var p := files[fi].package.value;
            var m := files[fi].messages[i];
            && p in Populate(files)
            && m.name.value in Populate(files)[p].children
            && Populate(files)[p].children[m.name.value] == MessageNode(m)
  {
    var f := files[fi];
    MessageNodesAt(f.messages, i);
    assert TopNodes(f)[i] == MessageNodes(f.messages)[i];
    PopulateReachesTop(files, fi, i);
  }

  /** With unique top-level names, top-level enum `e` of file `fi` is found
      under its package by its name, as a node without children. */
  lemma TopEnumReachable(files: seq<FileDecl>, fi: int, e: int)
    requires AllBuildable(files) && UniqueTopNames(files)
    requires 0 <= fi < |files| && 0 <= e < |files[fi].enums|
    ensures var p := files[fi].package.value;
            var en := files[fi].enums[e];
            && p in Populate(files)
            && en.name.value in Populate(files)[p].children
            && Populate(files)[p].children[en.name.value] == EnumNode(en)
  {
    var f := files[fi];
    var t := |f.messages| + e;
    assert TopNodes(f)[t] == EnumNodes(f.enums)[e];
    PopulateReachesTop(files, fi, t);
  }
}
